=== FILE: README.md ===
# Diary assistant core, modelled in Dafny

This project models the computational core of the diary assistant in
`main.py`. The diary is a table with one row per day. Each row holds a
summary, a happiness rating, the length of a linked voice recording and the
people mentioned that day.

The model covers these parts of the program:

- **The query shell's dispatch** (`process_input`, and what `handle_args`
  actually does). A line is split on whitespace and dispatched on its first
  word: `sd`, `rd`, `yr`, `all` and `exit`. Any other word is reported as an
  unknown command.
- **The recording-length statistics.**
  - `convert_seconds_to_hms` writes a second count as an unpadded `h:m:s`.
  - `get_total_length` reads the duration column back and sums it.
  - `get_total_files` counts the non-missing cells.
- **The catch-up walk** (`get_missing_entry_dates`). It lists the days
  between the last entry and today, and raises once it steps past
  0001-01-01.
- **The test in `update_diary`** that decides whether the walk runs.
- **The ranking of people mentioned** (`calculate_most_mentioned`). This
  includes its title-case quirk, and a corrected variant beside it.
- **The stable value sort** (`sort_dict_by_value`) that the rankings use.

The Python pieces these rely on are modelled in `strings.dfy`:

- `str.split(sep)`;
- `str.split()`, using Python's whitespace set;
- `int(text)`, with an optional sign and ASCII digits, surrounded by
  whitespace other than the separators U+001C to U+001F, which `int` does not
  skip;
- `str(n)`.

Python dictionaries keep insertion order, so they are modelled in
`dicts.dfy` as association lists. Python exceptions become values:
`Option.None`, or `Shell.Outcome.Raised`. Python's `str.title` is a function
parameter, so every property about mentions holds whatever title-casing does.
Dates are day ordinals: one `timedelta(days=1)` step is a subtraction of 1.

The source's own stubs decide what the shell does. `handle_sd` and
`get_random_entry` do nothing. `handle_args` looks only at `command[1]`, the
word right after the command:

- a recognised flag (`-r -c -w -a -s`) spins forever, because its loop never
  advances;
- an empty argument ends the loop at once (`while arg`);
- anything else is reported as an unknown argument.

Each flag branch of `handle_args` (main.py:83-92) is a bare `pass`, and the
handlers `handle_r` to `handle_s` (main.py:97-110) are empty stubs that
nothing calls.

## Model

| member | source | states |
|---|---|---|
| `Durations.Decompose` | main.py:389-390 | the two `divmod(_, 60)` steps give minutes and seconds below 60 that, with the hours, add back up to the input |
| `Durations.DecomposeUnique` | main.py:389-390 | that decomposition is the only one with minutes and seconds below 60 |
| `Durations.ConvertSecondsToHms` | main.py:386-391 | the text has exactly three colon-separated fields, each a decimal number written without leading zeros, minutes and seconds below 60, adding up to the input seconds |
| `Durations.ParseDuration` | main.py:352-353 | a text with fewer than two colons is rejected (IndexError at `hms[1]` or `hms[2]`); a text whose first, second or third field holds no digit is rejected (ValueError from `int`); when the first three fields are digit runs, leading zeros allowed, the result is their hours, minutes and seconds in seconds |
| `Durations.ConvertRoundTrip` | main.py:350-353 | reading a written duration back the way `get_total_length` does gives the same seconds |
| `Durations.ExtraFieldsIgnored` | main.py:352-353 | only the first three colon fields are read; text after a third colon changes nothing |
| `Durations.GetTotalLength` | main.py:345-356 | the method returns the reference total of the column: the parsed seconds of every present, non-blank cell added up, or an error (IndexError/ValueError) once any such cell is unreadable |
| `Durations.SumColumn` | main.py:347-356 | the loop, for any way of reading one text, skips missing and `' '` cells and its running sum equals the sum of the parsed cells, failing as soon as one fails |
| `Durations.SkippedCellIgnored` | main.py:347-351 | a missing or `' '` cell anywhere in the column leaves the total unchanged |
| `Durations.TotalLengthPermutation` | main.py:345-356 | the total does not depend on the order of the column |
| `Durations.TotalOfWrittenDurations` | main.py:345-356 | a column of texts written by `convert_seconds_to_hms` totals exactly the recorded seconds |
| `Durations.TotalFiles` | main.py:340-343 | the file count is the number of cells that are not missing |
| `Durations.SummedAtMostFiles` | main.py:340-356 | every summed cell is a counted file; the two counts agree exactly when no cell is `' '` |
| `MissingDays.DaysBetween` | main.py:179-193 | the missing days are exactly the days strictly between the last entry and today, each once, ascending |
| `MissingDays.GetMissingEntryDates` | main.py:179-193 | the source's walk back from today, collecting each step until it reaches the last entry and then reversing, returns a list exactly when the last entry lies between 0001-01-01 and yesterday, and that list is `DaysBetween`; otherwise it raises OverflowError |
| `MissingDays.WalkStopsIff` | main.py:187-191 | some step of the walk meets the last entry if and only if it lies between 0001-01-01 and yesterday |
| `MissingDays.Reverse` | main.py:192 | `missing.reverse()`: the same length, element `i` taken from position `len - 1 - i` |
| `MissingDays.ConsecutiveDaysMissNothing` | main.py:179-193 | an entry made yesterday leaves nothing to catch up |
| `SortByValue.SortDictByValue` | main.py:432-437 | the result is a rearrangement of the pairs, ordered by value (descending when `order` is truthy) |
| `SortByValue.SortIsStable` | main.py:432-437 | pairs with equal values keep their original relative order |
| `SortByValue.SortIsThePythonSort` | main.py:432-437 | any rearrangement that is sorted by value and keeps the order of equal values is the result |
| `SortByValue.SortKeepsKeys` | main.py:432-437 | the result holds the same keys, with the same multiplicities, as the input |
| `SortByValue.SortKeepsDistinct` | main.py:432-437 | sorting a dictionary's pairs gives pairs with no key twice |
| `Dicts.PutShape` | main.py:299-302 | assigning to a dictionary key adds that key to the key set; an existing key keeps its position, a new key goes last |
| `Dicts.LookupFound` | main.py:298-302 | a key is found exactly when it is stored, and the value found is the one stored under it |
| `Dicts.PutLookup` | main.py:299-302 | after assigning, the key reads back the new value and every other key reads back its old value |
| `Mentions.CalculateMostMentioned` | main.py:290-304 | the ranking exists exactly when the tally loop does not raise, and is then the tally's pairs, rearranged with the largest count first |
| `Mentions.RankingShape` | main.py:290-304 | a produced ranking has non-increasing counts, each at least 1, no key twice, each key the title-case of some mentioned name, and holds the tally's keys |
| `Mentions.NamesOfJoinedCell` | main.py:298 | a cell written as `', '.join(names)`, no name holding a comma, is read back by `people.split(', ')` as exactly those names |
| `Mentions.NonStringCellIgnored` | main.py:295-297 | a non-string `people` cell anywhere in the column changes nothing |
| `Mentions.CountsWhenNamesAreTitled` | main.py:290-304 | when title-casing leaves every mentioned name unchanged, the ranking exists and pairs every name with its number of mentions |
| `Mentions.AsWrittenAgreesOnTitledNames` | main.py:299-302 | on names that title-casing leaves alone, the loop as written takes the same steps as the corrected one |
| `Mentions.LowerCaseNameUndercounted` | main.py:299-302 | the name `bob` mentioned on two days is ranked `Bob: 1` as written, and `Bob: 2` by the corrected tally |
| `Mentions.CalculateMostMentionedIntended` | main.py:290-304 | the corrected ranking is the corrected tally's pairs, rearranged with the largest count first |
| `Mentions.IntendedRanking` | main.py:290-304 | the corrected ranking lists each key once, pairs it with the number of mentioned names whose title-case it is, lists every such title, and is ordered by count |
| `Mentions.IntendedCounts` | main.py:299-302 | the corrected inner loop adds to each key's count the number of names that title-case to that key |
| `Shell.Dispatch` | main.py:39-72 | an empty command raises IndexError; `yr` with exactly one argument that is not an integer raises ValueError; it diverges exactly when the word right after `all`, or right after `yr` with at least two words following, is a recognised flag; `sd` and `yr` alone report the missing argument; `sd X` and `rd` print nothing; `yr Y` shows the rows of year Y and `all` the whole table; otherwise it returns 0 exactly for `exit` and 1 otherwise |
| `Shell.HandleArgs` | main.py:80-95 | only `command[1]` is examined: an empty one ends the loop at once, a recognised flag diverges, and any other word is reported as an unknown argument |
| `Shell.ProcessInput` | main.py:39-43 | the line is split on whitespace; it raises IndexError exactly when it is empty or all whitespace |
| `Shell.RowsOfYear` | main.py:55-56 | the rows shown are exactly the table's rows of that year, with the same multiplicities and in table order |
| `Shell.YearQuery` | main.py:52-56 | the line `yr Y` shows exactly the rows of year Y, with their multiplicities, in table order |
| `Shell.ExitIsTheOnlyZero` | main.py:66-72 | the shell loop ends (status 0) exactly when the first word is `exit` |
| `Shell.AllShowsEveryRow` | main.py:60-62 | `all` alone shows the whole table |
| `Shell.UnknownCommandReported` | main.py:68-69 | a first word that is no command is reported back, and the shell goes on |
| `Shell.ExtraArgumentReported` | main.py:52-64 | two or more words after `yr`, or any after `all`, go to `handle_args`, which reports `command[1]` unless it is a flag; after `yr` that is the year word itself |
| `Strings.Split` | main.py:352 | `str.split(sep)` always yields at least one piece |
| `Strings.SplitCount` | main.py:352 | `split(':')` yields one piece more than the text has colons |
| `Strings.JoinSplit` | main.py:352 | joining the pieces of `split(sep)` gives back the text |
| `Strings.SplitJoin` | main.py:352 | `split(sep)` of pieces joined by `sep`, none holding the separator's first character, gives back exactly those pieces |
| `Strings.Tokenize` | main.py:41 | `str.split()` yields only non-empty words without whitespace |
| `Strings.TokenizeJoin` | main.py:41 | words without whitespace, joined by spaces, are split back into exactly those words |
| `Strings.TokenizeKeepsNonSpace` | main.py:41 | `split()` drops exactly the whitespace: its words concatenate to the line's non-whitespace characters |
| `Strings.TokenizeAtSpace` | main.py:41 | a whitespace character separates words: `split()` of `a + c + b` with `c` whitespace is `split()` of `a` followed by `split()` of `b` |
| `Strings.NatToDecimal` | main.py:391 | `str(n)` of a natural number is a non-empty run of decimal digits, without leading zeros, whose value is `n` |
| `Strings.ParseIntOfDecimal` | main.py:353 | `int(str(n)) == n` for every natural `n` |
| `Strings.IntSpaceIsNarrower` | main.py:353 | for every digit run and every character from U+001C to U+001F: that character is whitespace to `split()`, yet `int` rejects the run with it in front, while a tab in front is skipped and the run's value is returned |
| `Strings.ParseIntNeedsDigit` | main.py:353 | `int` rejects (ValueError) any text without a decimal digit |
| `UpdateGuard.SameDayPassesGuard` | main.py:158-166 | as written, `last_entry != today` holds even when the last entry is dated today, because the two sides are written in different formats |
| `UpdateGuard.CatchUpGuardIff` | main.py:158-166 | compared in one format, the test holds exactly when the last entry is not today |

## Left out

- Terminal I/O is not modelled: the `shell` loop, the `inquirer` menus, `print` formatting, the plotting calls and `ui.py`. Each command's printed output is modelled as an `Effect` value.
- Disk I/O is not modelled: the CSV files (`append_to_csv`, `update_statistics_csv`), the mp3 length reader and its `os.chdir`. `get_total_length` and `get_total_files` take the duration column as a sequence of cells.
- Clocks are left out: `get_current_date` and the other date getters. Today and the last entry are parameters.
- `strptime`/`strftime` are left out of the walk. Dates there are day ordinals, with 0001-01-01 as day 1. `get_last_date_updated` re-writes the last entry as `%m/%d/%Y`, the format the walk writes each step in, so comparing the texts is comparing the days.
- The walk has no upper date bound. It only steps backwards, so `datetime`'s 9999-12-31 limit is never reached.
- `get_last_date_updated` itself is left out. It reads the stored date with a four-digit `%Y`, while `update_diary` stores today's date with a two-digit `%y`, and which texts the CSV holds is outside the model.
- `UpdateGuard` writes every year with four digits and every field zero-padded. `CatchUpGuardIff` needs years from 1000 to 9999.
- `catch_up`, `new_entry`, the rest of `update_diary`, `main_menu`, `search_by_keyword`, `calculate_happiest_month`, `calculate_happiest_weekday` and the `get_*_from_user` prompts are left out. They are interactive glue, or averages over floats.
- The empty stubs `handle_sd`, `get_random_entry` and `handle_r` … `handle_s` have no behaviour. The model records them as printing nothing.
- The `type(user_input) == str` test in the shell loop is left out. `input()` always returns a string.
- `data.copy(deep=True)` needs no model. Everything is a value, so no command can change the stored table.
- Durations.ConvertSecondsToHms: whole, non-negative seconds only. The mp3 reader hands over a float, and `math.floor` of its fields is not modelled.
- Durations.GetTotalLength: sums plain integers. It does not model `timedelta`'s normalisation or its overflow beyond 999999999 days.
- Strings.ParseInt: does not accept Python's `_` digit separators or non-ASCII decimal digits.
- Mentions.RankingShape: says nothing when the loop as written raises `KeyError`. That happens when a raw name is already a key but its title-case is not.

## Findings

| source | as written | input that shows it | evidently intended | confidence | as-written member | corrected member |
|---|---|---|---|---|---|---|
| main.py:299-302 | `if person not in people_ranked` tests the raw name, but the key stored is `person.title()` | the name `bob` in the `people` column on two days: the second mention resets `Bob` to 1 instead of raising it to 2 | test and update the same key, `person.title()`, so each key counts the names that title-case to it | high; not executed | `Mentions.CalculateMostMentioned` (shown by `Mentions.LowerCaseNameUndercounted`) | `Mentions.CalculateMostMentionedIntended` (proved by `Mentions.IntendedRanking`) |
| main.py:165 | `last_entry != today` compares a `%m/%d/%Y` text (main.py:334) with a `%m/%d/%y` text (main.py:311), which never match | a diary whose last row is dated today in `%m/%d/%Y`, e.g. `10/11/2026` against today `10/11/26`. The program itself writes its rows with `%y` (main.py:174, formatted at main.py:311), which `get_last_date_updated` (main.py:333) cannot read back, so the row must come from some other writer. The walk then starts with the last entry equal to today, steps back past 0001-01-01 and raises OverflowError | compare both dates in one format, so the catch-up runs only when the last entry is not today | high; not executed | `UpdateGuard.CatchUpGuardAsWritten` (shown by `UpdateGuard.SameDayPassesGuard`, and `MissingDays.GetMissingEntryDates` for the walk) | `UpdateGuard.CatchUpGuard` (proved by `UpdateGuard.CatchUpGuardIff`) |

=== FILE: dicts.dfy ===
/** Python dictionaries as the diary code uses them: key/value pairs in
    insertion order. Assigning to a key that is present replaces its value in
    place; assigning to a new key appends it. */
module Dicts {
  import opened Wrappers
  import opened Sequences

  type Dict<K, V> = seq<(K, V)>

  function KeySet<K(==), V(==)>(d: Dict<K, V>): set<K>
  {
    set i | 0 <= i < |d| :: d[i].0
  }

  /** No key occurs twice: the invariant every Python dict keeps. */
  predicate DistinctKeys<K(==), V(==)>(d: Dict<K, V>)
  {
    forall i, j :: 0 <= i < j < |d| ==> d[i].0 != d[j].0
  }

  /** The keys, in order: `list(d)`. */
  function Keys<K, V>(d: Dict<K, V>): seq<K>
  {
    if |d| == 0 then [] else [d[0].0] + Keys(d[1..])
  }

  lemma {:induction false} KeysIndex<K, V>(d: Dict<K, V>)
    ensures |Keys(d)| == |d|
    ensures forall i :: 0 <= i < |d| ==> Keys(d)[i] == d[i].0
    decreases |d|
  {
    if |d| > 0 {
      KeysIndex(d[1..]);
    }
  }

  /** Distinct keys are a key sequence without duplicates. */
  lemma DistinctKeysAsSequence<K, V>(d: Dict<K, V>)
    ensures DistinctKeys(d) <==> NoDuplicates(Keys(d))
  {
    KeysIndex(d);
    if NoDuplicates(Keys(d)) {
      forall i, j | 0 <= i < j < |d|
        ensures d[i].0 != d[j].0
      {
        assert Keys(d)[i] != Keys(d)[j];
      }
    }
  }

  /** `d.get(k)`: the value stored under the first occurrence of `k`, if any. */
  function Lookup<K(==), V(==)>(d: Dict<K, V>, k: K): Option<V>
  {
    if |d| == 0 then None
    else if d[0].0 == k then Some(d[0].1)
    else Lookup(d[1..], k)
  }

  /** A key is found exactly when it is stored, and what is found is stored
      under it. */
  lemma {:induction false} LookupFound<K, V>(d: Dict<K, V>, k: K)
    ensures Lookup(d, k).Some? <==> k in KeySet(d)
    ensures Lookup(d, k).Some? ==> (k, Lookup(d, k).value) in d
    decreases |d|
  {
    if |d| > 0 {
      KeySetCons(d[0], d[1..]);
      assert d == [d[0]] + d[1..];
      if d[0].0 != k {
        LookupFound(d[1..], k);
      }
    }
  }

  /** `d[k] = v`. */
  function Put<K(==), V>(d: Dict<K, V>, k: K, v: V): Dict<K, V>
  {
    if |d| == 0 then [(k, v)]
    else if d[0].0 == k then [(k, v)] + d[1..]
    else [d[0]] + Put(d[1..], k, v)
  }

  /** Assignment adds `k` to the keys; a present key keeps its place (every
      position keeps its key), a new key goes at the end. */
  lemma {:induction false} PutShape<K, V>(d: Dict<K, V>, k: K, v: V)
    ensures KeySet(Put(d, k, v)) == KeySet(d) + {k}
    ensures k in KeySet(d) ==> |Put(d, k, v)| == |d| && forall i :: 0 <= i < |d| ==> Put(d, k, v)[i].0 == d[i].0
    ensures k !in KeySet(d) ==> Put(d, k, v) == d + [(k, v)]
    decreases |d|
  {
    var r := Put(d, k, v);
    if |d| == 0 {
      assert r[0].0 == k;
      assert KeySet(r) == {k};
    } else {
      KeySetCons(d[0], d[1..]);
      assert d == [d[0]] + d[1..];
      if d[0].0 == k {
        KeySetCons((k, v), d[1..]);
      } else {
        var rest := Put(d[1..], k, v);
        PutShape(d[1..], k, v);
        KeySetCons(d[0], rest);
      }
    }
  }

  lemma KeySetCons<K, V>(p: (K, V), s: Dict<K, V>)
    ensures KeySet([p] + s) == {p.0} + KeySet(s)
  {
    var r := [p] + s;
    forall x | x in KeySet(r)
      ensures x in {p.0} + KeySet(s)
    {
      var i :| 0 <= i < |r| && r[i].0 == x;
      if i > 0 {
        assert s[i - 1].0 == x;
      }
    }
    forall x | x in KeySet(s)
      ensures x in KeySet(r)
    {
      var i :| 0 <= i < |s| && s[i].0 == x;
      assert r[i + 1].0 == x;
    }
    assert r[0].0 == p.0;
  }

  /** After `d[k] = v`, `k` reads back `v` and every other key reads what it
      read before. */
  lemma {:induction false} PutLookup<K, V>(d: Dict<K, V>, k: K, v: V, other: K)
    ensures Lookup(Put(d, k, v), k) == Some(v)
    ensures other != k ==> Lookup(Put(d, k, v), other) == Lookup(d, other)
  {
    if |d| > 0 && d[0].0 != k {
      PutLookup(d[1..], k, v, other);
      assert Put(d, k, v)[1..] == Put(d[1..], k, v);
    }
  }

  /** After `d[k] = v` every entry is the new one or an entry of `d`. */
  lemma {:induction false} PutEntries<K, V>(d: Dict<K, V>, k: K, v: V)
    ensures forall i :: 0 <= i < |Put(d, k, v)| ==> Put(d, k, v)[i] == (k, v) || Put(d, k, v)[i] in d
  {
    if |d| > 0 && d[0].0 != k {
      PutEntries(d[1..], k, v);
      var r := Put(d, k, v);
      forall i | 0 <= i < |r|
        ensures r[i] == (k, v) || r[i] in d
      {
        if i > 0 {
          assert r[i] == Put(d[1..], k, v)[i - 1];
          if r[i] != (k, v) {
            assert r[i] in d[1..];
          }
        }
      }
    } else if |d| > 0 {
      var r := Put(d, k, v);
      forall i | 0 <= i < |r|
        ensures r[i] == (k, v) || r[i] in d
      {
        if i > 0 {
          assert r[i] == d[i];
        }
      }
    }
  }

  /** Assignment keeps a dict's keys distinct. */
  lemma PutDistinct<K, V>(d: Dict<K, V>, k: K, v: V)
    requires DistinctKeys(d)
    ensures DistinctKeys(Put(d, k, v))
  {
    var r := Put(d, k, v);
    PutShape(d, k, v);
    if k !in KeySet(d) {
      forall i, j | 0 <= i < j < |r|
        ensures r[i].0 != r[j].0
      {
        assert r[i] == d[i] || i == |d|;
        if j == |d| {
          assert d[i].0 in KeySet(d);
        } else {
          assert r[j] == d[j];
        }
      }
    } else {
      forall i, j | 0 <= i < j < |r|
        ensures r[i].0 != r[j].0
      {
        assert r[i].0 == d[i].0 && r[j].0 == d[j].0;
      }
    }
  }

  /** In a dict, a stored pair is what lookup of its key returns. */
  lemma {:induction false} LookupOfPair<K, V>(d: Dict<K, V>, k: K, v: V)
    requires DistinctKeys(d)
    requires (k, v) in d
    ensures Lookup(d, k) == Some(v)
  {
    var j :| 0 <= j < |d| && d[j] == (k, v);
    if j > 0 {
      assert d[0].0 != k;
      assert d[1..][j - 1] == (k, v);
      LookupOfPair(d[1..], k, v);
    }
  }
}

=== FILE: durations.dfy ===
/** Recording durations: `convert_seconds_to_hms`, which spells a second
    count as an unpadded `h:m:s` string, and the statistics routines
    `get_total_length` and `get_total_files`, which read such strings back from
    the diary's `duration` column (main.py:340-356, 385-391). Durations are
    whole seconds. */
module Durations {
  import opened Wrappers
  import opened Strings
  import opened Sequences

  /** A duration split into hours, minutes and seconds. */
  datatype Hms = Hms(hours: nat, minutes: nat, seconds: nat)

  /** The length `timedelta(hours=h, minutes=m, seconds=s)` stands for, in seconds. */
  function Seconds(h: int, m: int, s: int): int
  {
    h * 3600 + m * 60 + s
  }

  /** The two `divmod(_, 60)` steps of `convert_seconds_to_hms`. */
  function Decompose(total: nat): (t: Hms)
    ensures t.minutes < 60 && t.seconds < 60
    ensures Seconds(t.hours, t.minutes, t.seconds) == total
  {
    var minutes := total / 60;
    Hms(minutes / 60, minutes % 60, total % 60)
  }

  /** There is only one way to write a second count with minutes and seconds
      below 60, so `Decompose` finds it. */
  lemma DecomposeUnique(total: nat, t: Hms)
    requires t.minutes < 60 && t.seconds < 60
    requires Seconds(t.hours, t.minutes, t.seconds) == total
    ensures Decompose(total) == t
  {
    var d := Decompose(total);
    var mt := t.hours * 60 + t.minutes;
    assert total == mt * 60 + t.seconds;
    assert total / 60 == mt && total % 60 == t.seconds;
    assert mt / 60 == t.hours && mt % 60 == t.minutes;
  }

  /** `convert_seconds_to_hms(total)` for a whole, non-negative `total`: the
      text has exactly three colon-separated fields, each the canonical decimal
      spelling of a number, minutes and seconds below 60, and the fields add up
      to `total`. */
  function ConvertSecondsToHms(total: nat): (r: string)
    ensures var fields := Split(r, ":");
      && |fields| == 3
      && (forall i :: 0 <= i < 3 ==> |fields[i]| >= 1 && AllDigits(fields[i]))
      && (forall i :: 0 <= i < 3 ==> fields[i][0] == '0' ==> fields[i] == "0")
      && DecimalValue(fields[1]) < 60 && DecimalValue(fields[2]) < 60
      && Seconds(DecimalValue(fields[0]), DecimalValue(fields[1]), DecimalValue(fields[2])) == total
  {
    var t := Decompose(total);
    var h, m, s := NatToDecimal(t.hours), NatToDecimal(t.minutes), NatToDecimal(t.seconds);
    var r := h + ":" + m + ":" + s;
    assert Join([h, m, s], ":") == r by {
      assert [h, m, s][1..] == [m, s] && [m, s][1..] == [s];
      assert Join([m, s], ":") == m + ":" + s;
      assert Join([h, m, s], ":") == h + ":" + (m + ":" + s);
    }
    NoColonInDigits(h);
    NoColonInDigits(m);
    NoColonInDigits(s);
    SplitJoin([h, m, s], ":");
    r
  }

  lemma NoColonInDigits(s: string)
    requires AllDigits(s)
    ensures ':' !in s
  {
  }

  /** How `get_total_length` reads one duration text: `text.split(':')`, then
      `int` of the first three fields as hours, minutes and seconds (fields
      past the third are never looked at). Fewer than three fields
      (`IndexError`, so fewer than two colons) or a field `int` rejects
      (`ValueError`) is `None`; three digit fields, leading zeros allowed,
      are read as their decimal values. */
  function ParseDuration(text: string): (r: Option<int>)
    ensures multiset(text)[':'] < 2 ==> r == None
    ensures var hms := Split(text, ":");
      |hms| >= 3 && (forall i :: 0 <= i < 3 ==> |hms[i]| >= 1 && AllDigits(hms[i]))
      ==> r == Some(Seconds(DecimalValue(hms[0]), DecimalValue(hms[1]), DecimalValue(hms[2])))
    ensures var hms := Split(text, ":");
      |hms| >= 3 && (NoDigit(hms[0]) || NoDigit(hms[1]) || NoDigit(hms[2])) ==> r == None
  {
    var hms := Split(text, ":");
    assert |hms| == multiset(text)[':'] + 1 by {
      SplitCount(text, ':');
    }
    assert |hms| >= 3 && (forall i :: 0 <= i < 3 ==> |hms[i]| >= 1 && AllDigits(hms[i]))
      ==> && ParseInt(hms[0]) == Some(DecimalValue(hms[0]))
          && ParseInt(hms[1]) == Some(DecimalValue(hms[1]))
          && ParseInt(hms[2]) == Some(DecimalValue(hms[2])) by {
      if |hms| >= 3 && (forall i :: 0 <= i < 3 ==> |hms[i]| >= 1 && AllDigits(hms[i])) {
        CanonicalParse(hms[0]);
        CanonicalParse(hms[1]);
        CanonicalParse(hms[2]);
      }
    }
    assert |hms| >= 3 ==>
      && (NoDigit(hms[0]) ==> ParseInt(hms[0]) == None)
      && (NoDigit(hms[1]) ==> ParseInt(hms[1]) == None)
      && (NoDigit(hms[2]) ==> ParseInt(hms[2]) == None) by {
      if |hms| >= 3 {
        if NoDigit(hms[0]) { ParseIntNeedsDigit(hms[0]); }
        if NoDigit(hms[1]) { ParseIntNeedsDigit(hms[1]); }
        if NoDigit(hms[2]) { ParseIntNeedsDigit(hms[2]); }
      }
    }
    if |hms| < 3 then None
    else
      match (ParseInt(hms[0]), ParseInt(hms[1]), ParseInt(hms[2]))
      case (Some(h), Some(m), Some(s)) => Some(Seconds(h, m, s))
      case _ => None
  }

  /** Round trip: reading back what `convert_seconds_to_hms` wrote gives the
      same number of seconds. */
  lemma ConvertRoundTrip(total: nat)
    ensures ParseDuration(ConvertSecondsToHms(total)) == Some(total)
  {
    var text := ConvertSecondsToHms(total);
    var fields := Split(text, ":");
    assert |fields| == 3 && forall i :: 0 <= i < 3 ==> |fields[i]| >= 1 && AllDigits(fields[i]);
    var h, m, s := DecimalValue(fields[0]), DecimalValue(fields[1]), DecimalValue(fields[2]);
    assert Seconds(h, m, s) == total;
    assert ParseDuration(text) == Some(Seconds(h, m, s));
  }

  /** Fields after the third are never read: appending `:extra` to a text
      that already has three fields changes nothing. */
  lemma ExtraFieldsIgnored(text: string, extra: string)
    requires |Split(text, ":")| >= 3
    ensures ParseDuration(text + ":" + extra) == ParseDuration(text)
  {
    SplitAround(text, ':', extra);
    var longer := Split(text + ":" + extra, ":");
    assert longer == Split(text, ":") + Split(extra, ":");
    assert longer[..3] == Split(text, ":")[..3];
  }

  // ---------------------------------------------------------------------------
  // The duration column
  // ---------------------------------------------------------------------------

  /** One cell of the `duration` column: missing (NaN, dropped by `dropna`) or
      the text stored in the CSV. */
  datatype DurationCell = Missing | Text(text: string)

  /** A cell `get_total_length` adds up: present and not the single blank `' '`. */
  predicate Summed(c: DurationCell)
  {
    c.Text? && c.text != " "
  }

  /** The texts `get_total_length` parses, in column order. */
  function SummedTexts(cells: seq<DurationCell>): (texts: seq<string>)
    ensures |texts| <= |cells|
  {
    if |cells| == 0 then []
    else (if Summed(cells[0]) then [cells[0].text] else []) + SummedTexts(cells[1..])
  }

  function AddOpt(a: Option<int>, b: Option<int>): Option<int>
  {
    if a.Some? && b.Some? then Some(a.value + b.value) else None
  }

  /** The parsed lengths of the given texts added up; `None` as soon as any
      of them fails to parse. Written for any parser so that the facts about
      summing below do not depend on how one text is read. */
  function SumParsed(parse: string -> Option<int>, texts: seq<string>): Option<int>
  {
    if |texts| == 0 then Some(0)
    else AddOpt(parse(texts[0]), SumParsed(parse, texts[1..]))
  }

  /** The sum of the summed cells of a column, under a given parser. */
  function ColumnTotal(parse: string -> Option<int>, cells: seq<DurationCell>): Option<int>
  {
    SumParsed(parse, SummedTexts(cells))
  }

  /** Reference total of a `duration` column: the lengths of exactly the
      present, non-blank cells, read by `ParseDuration`, added up. */
  function TotalLength(cells: seq<DurationCell>): Option<int>
  {
    ColumnTotal(ParseDuration, cells)
  }

  /** `get_total_length` over the `duration` column: the source's loop with
      `ParseDuration` reading each text. The result is the reference total. */
  method GetTotalLength(cells: seq<DurationCell>) returns (total: Option<int>)
    ensures total == TotalLength(cells)
  {
    total := SumColumn(ParseDuration, cells);
  }

  /** The loop of `get_total_length`, for any way of reading one text:
      missing cells and `' '` are skipped, every other cell is parsed and
      added, and the first unparseable cell aborts the whole computation. */
  method SumColumn(parse: string -> Option<int>, cells: seq<DurationCell>) returns (total: Option<int>)
    ensures total == SumParsed(parse, SummedTexts(cells))
  {
    var sum := 0;
    var i := 0;
    while i < |cells|
      invariant 0 <= i <= |cells|
      invariant SumParsed(parse, SummedTexts(cells[..i])) == Some(sum)
    {
      var cell := cells[i];
      SumColumnStep(parse, cells, i, sum);
      if Summed(cell) {
        var seconds := parse(cell.text);
        if seconds.None? {
          SumColumnFails(parse, cells, i);
          return None;
        }
        sum := sum + seconds.value;
      }
      i := i + 1;
    }
    assert cells[..i] == cells;
    total := Some(sum);
  }

  /** One iteration of `SumColumn`: a skipped cell keeps the running sum and
      a parsed one adds to it. */
  lemma SumColumnStep(parse: string -> Option<int>, cells: seq<DurationCell>, i: nat, sum: int)
    requires i < |cells|
    requires SumParsed(parse, SummedTexts(cells[..i])) == Some(sum)
    ensures !Summed(cells[i]) ==> SumParsed(parse, SummedTexts(cells[..i + 1])) == Some(sum)
    ensures Summed(cells[i]) && parse(cells[i].text).Some? ==>
      SumParsed(parse, SummedTexts(cells[..i + 1])) == Some(sum + parse(cells[i].text).value)
  {
    SummedTextsStep(cells, i);
    if Summed(cells[i]) {
      SumParsedSnoc(parse, SummedTexts(cells[..i]), cells[i].text);
    }
  }

  /** A cell that is summed but does not parse fails the whole column. */
  lemma SumColumnFails(parse: string -> Option<int>, cells: seq<DurationCell>, i: nat)
    requires i < |cells| && Summed(cells[i]) && parse(cells[i].text).None?
    ensures ColumnTotal(parse, cells) == None
  {
    SummedTextsStep(cells, i);
    SumParsedSnoc(parse, SummedTexts(cells[..i]), cells[i].text);
    FailureSticks(parse, cells, i + 1);
  }

  lemma SummedTextsStep(cells: seq<DurationCell>, i: nat)
    requires i < |cells|
    ensures Summed(cells[i]) ==> SummedTexts(cells[..i + 1]) == SummedTexts(cells[..i]) + [cells[i].text]
    ensures !Summed(cells[i]) ==> SummedTexts(cells[..i + 1]) == SummedTexts(cells[..i])
  {
    assert cells[..i + 1] == cells[..i] + [cells[i]];
    SummedTextsAppend(cells[..i], [cells[i]]);
    assert [cells[i]][1..] == [];
    assert SummedTexts(cells[..i]) + [] == SummedTexts(cells[..i]);
  }

  lemma SumParsedSnoc(parse: string -> Option<int>, texts: seq<string>, text: string)
    ensures SumParsed(parse, texts + [text]) == AddOpt(SumParsed(parse, texts), parse(text))
  {
    SumParsedAppend(parse, texts, [text]);
    assert [text][1..] == [];
  }

  /** Once a prefix of the column fails to parse, the whole column does. */
  lemma FailureSticks(parse: string -> Option<int>, cells: seq<DurationCell>, i: nat)
    requires i <= |cells|
    requires ColumnTotal(parse, cells[..i]) == None
    ensures ColumnTotal(parse, cells) == None
  {
    assert cells == cells[..i] + cells[i..];
    ColumnTotalAppend(parse, cells[..i], cells[i..]);
  }

  lemma {:induction false} SummedTextsAppend(a: seq<DurationCell>, b: seq<DurationCell>)
    ensures SummedTexts(a + b) == SummedTexts(a) + SummedTexts(b)
    decreases |a|
  {
    if |a| == 0 {
      assert a + b == b;
    } else {
      var head := if Summed(a[0]) then [a[0].text] else [];
      var rest := SummedTexts(a[1..]);
      assert (a + b)[0] == a[0] && (a + b)[1..] == a[1..] + b;
      assert SummedTexts(a + b) == head + SummedTexts(a[1..] + b);
      assert SummedTexts(a) == head + rest;
      SummedTextsAppend(a[1..], b);
      assert head + (rest + SummedTexts(b)) == (head + rest) + SummedTexts(b);
    }
  }

  lemma {:induction false} SumParsedAppend(parse: string -> Option<int>, a: seq<string>, b: seq<string>)
    ensures SumParsed(parse, a + b) == AddOpt(SumParsed(parse, a), SumParsed(parse, b))
    decreases |a|
  {
    if |a| == 0 {
      assert a + b == b;
    } else {
      assert (a + b)[1..] == a[1..] + b;
      SumParsedAppend(parse, a[1..], b);
    }
  }

  lemma ColumnTotalAppend(parse: string -> Option<int>, a: seq<DurationCell>, b: seq<DurationCell>)
    ensures ColumnTotal(parse, a + b) == AddOpt(ColumnTotal(parse, a), ColumnTotal(parse, b))
  {
    SummedTextsAppend(a, b);
    SumParsedAppend(parse, SummedTexts(a), SummedTexts(b));
  }

  /** A missing or blank cell, wherever it sits, leaves the total unchanged. */
  lemma SkippedCellIgnored(a: seq<DurationCell>, c: DurationCell, b: seq<DurationCell>)
    requires !Summed(c)
    ensures TotalLength(a + [c] + b) == TotalLength(a + b)
  {
    ColumnTotalAppend(ParseDuration, a + [c], b);
    ColumnTotalAppend(ParseDuration, a, [c]);
    ColumnTotalAppend(ParseDuration, a, b);
    assert SummedTexts([c]) == [] by {
      assert [c][1..] == [];
    }
  }

  lemma {:induction false} ColumnTotalPermutation(parse: string -> Option<int>, a: seq<DurationCell>, b: seq<DurationCell>)
    requires multiset(a) == multiset(b)
    ensures ColumnTotal(parse, a) == ColumnTotal(parse, b)
    decreases |a|
  {
    if |a| == 0 {
      assert |b| == 0;
    } else {
      var k := PickMatch(a, b);
      var x, front, back := [a[0]], b[..k], b[k + 1..];
      var cx, cf, cb := ColumnTotal(parse, x), ColumnTotal(parse, front), ColumnTotal(parse, back);
      assert ColumnTotal(parse, a[1..]) == AddOpt(cf, cb) by {
        ColumnTotalPermutation(parse, a[1..], front + back);
        ColumnTotalAppend(parse, front, back);
      }
      assert ColumnTotal(parse, a) == AddOpt(cx, AddOpt(cf, cb)) by {
        assert a == x + a[1..];
        ColumnTotalAppend(parse, x, a[1..]);
      }
      assert ColumnTotal(parse, b) == AddOpt(AddOpt(cf, cx), cb) by {
        assert b == front + x + back;
        ColumnTotalAppend(parse, front + x, back);
        ColumnTotalAppend(parse, front, x);
      }
      AddOptShuffle(cx, cf, cb);
    }
  }

  lemma AddOptShuffle(x: Option<int>, f: Option<int>, b: Option<int>)
    ensures AddOpt(x, AddOpt(f, b)) == AddOpt(AddOpt(f, x), b)
  {
  }

  /** The total does not depend on the order of the column's cells. */
  lemma TotalLengthPermutation(a: seq<DurationCell>, b: seq<DurationCell>)
    requires multiset(a) == multiset(b)
    ensures TotalLength(a) == TotalLength(b)
  {
    ColumnTotalPermutation(ParseDuration, a, b);
  }

  /** A duration column holding one formatted text per recording. */
  function FormattedColumn(format: nat -> string, seconds: seq<nat>): (cells: seq<DurationCell>)
    ensures |cells| == |seconds|
  {
    if |seconds| == 0 then []
    else [Text(format(seconds[0]))] + FormattedColumn(format, seconds[1..])
  }

  lemma SingleCellTotal(parse: string -> Option<int>, c: DurationCell)
    requires Summed(c)
    ensures ColumnTotal(parse, [c]) == parse(c.text)
  {
    assert [c][1..] == [];
    assert SummedTexts([c]) == [c.text];
    assert [c.text][1..] == [];
    assert SumParsed(parse, [c.text]) == AddOpt(parse(c.text), SumParsed(parse, []));
  }

  /** If every text a formatter writes is summed and read back as the seconds
      it was made from, a column of such texts totals the recorded seconds. */
  lemma {:induction false} FormattedColumnTotal(parse: string -> Option<int>, format: nat -> string, seconds: seq<nat>)
    requires forall i :: 0 <= i < |seconds| ==> format(seconds[i]) != " " && parse(format(seconds[i])) == Some(seconds[i])
    ensures ColumnTotal(parse, FormattedColumn(format, seconds)) == Some(SumNat(seconds))
    decreases |seconds|
  {
    if |seconds| > 0 {
      var head := [Text(format(seconds[0]))];
      var tail := FormattedColumn(format, seconds[1..]);
      FormattedColumnTotal(parse, format, seconds[1..]);
      SingleCellTotal(parse, head[0]);
      ColumnTotalAppend(parse, head, tail);
    } else {
      assert SummedTexts([]) == [];
    }
  }

  /** One text written by `convert_seconds_to_hms` is summed and reads back as
      its own seconds. */
  lemma WrittenTextReadsBack(seconds: nat)
    ensures ConvertSecondsToHms(seconds) != " "
    ensures ParseDuration(ConvertSecondsToHms(seconds)) == Some(seconds)
  {
    var text := ConvertSecondsToHms(seconds);
    SplitWithoutSeparator(" ", ":");
    ConvertRoundTrip(seconds);
  }

  /** A column filled by the shell itself, every cell written by
      `convert_seconds_to_hms`, totals exactly the recorded seconds. */
  lemma TotalOfWrittenDurations(seconds: seq<nat>)
    ensures TotalLength(FormattedColumn(ConvertSecondsToHms, seconds)) == Some(SumNat(seconds))
  {
    forall i | 0 <= i < |seconds|
      ensures ConvertSecondsToHms(seconds[i]) != " "
      ensures ParseDuration(ConvertSecondsToHms(seconds[i])) == Some(seconds[i])
    {
      WrittenTextReadsBack(seconds[i]);
    }
    FormattedColumnTotal(ParseDuration, ConvertSecondsToHms, seconds);
  }

  function SumNat(xs: seq<nat>): nat
  {
    if |xs| == 0 then 0 else xs[0] + SumNat(xs[1..])
  }

  /** `get_total_files`: the number of cells `dropna` keeps, i.e. the cells that
      are not missing. */
  function TotalFiles(cells: seq<DurationCell>): (n: nat)
    ensures n == |cells| - multiset(cells)[Missing]
  {
    if |cells| == 0 then 0
    else
      assert cells == [cells[0]] + cells[1..];
      (if cells[0].Missing? then 0 else 1) + TotalFiles(cells[1..])
  }

  /** Every summed cell is a counted file, and the two counts agree exactly
      when no cell holds the blank `' '`. */
  lemma {:induction false} SummedAtMostFiles(cells: seq<DurationCell>)
    ensures |SummedTexts(cells)| <= TotalFiles(cells)
    ensures |SummedTexts(cells)| == TotalFiles(cells) <==> Text(" ") !in cells
    decreases |cells|
  {
    if |cells| > 0 {
      SummedAtMostFiles(cells[1..]);
      assert cells == [cells[0]] + cells[1..];
    }
  }
}

=== FILE: mentions.dfy ===
/** `calculate_most_mentioned` (main.py:290-304): how often each person is
    named in the `people` column, ranked by count. Python's `str.title` is a
    parameter `title`, so every property below holds whatever title-casing
    does. */
module Mentions {
  import opened Wrappers
  import opened Strings
  import opened Dicts
  import opened SortByValue

  /** One cell of the `people` column: a string of names joined by `", "`, or
      anything else (NaN for an empty day), which the tally skips. */
  datatype PeopleCell = NotText | Names(text: string)

  type Tally = Dict<string, int>

  /** The names a cell contributes: `people.split(', ')`, nothing for a
      non-string cell. */
  function NamesIn(cell: PeopleCell): seq<string>
  {
    match cell
    case NotText => []
    case Names(text) => Split(text, ", ")
  }

  /** A cell written as `', '.join(names)` gives back exactly those names, as
      long as no name holds a comma. */
  lemma NamesOfJoinedCell(names: seq<string>)
    requires |names| >= 1
    requires forall i :: 0 <= i < |names| ==> ',' !in names[i]
    ensures NamesIn(Names(Join(names, ", "))) == names
  {
    SplitJoin(names, ", ");
  }

  /** Every name mentioned in the column, in column order. */
  function Mentioned(cells: seq<PeopleCell>): seq<string>
  {
    if |cells| == 0 then [] else NamesIn(cells[0]) + Mentioned(cells[1..])
  }

  /** The title-cased forms of some names, in order. */
  function Titled(names: seq<string>, title: string -> string): (r: seq<string>)
    ensures |r| == |names|
  {
    if |names| == 0 then [] else [title(names[0])] + Titled(names[1..], title)
  }

  lemma {:induction false} TitledAppend(a: seq<string>, b: seq<string>, title: string -> string)
    ensures Titled(a + b, title) == Titled(a, title) + Titled(b, title)
    decreases |a|
  {
    if |a| == 0 {
      assert a + b == b;
    } else {
      assert (a + b)[0] == a[0] && (a + b)[1..] == a[1..] + b;
      TitledAppend(a[1..], b, title);
    }
  }

  // ---------------------------------------------------------------------------
  // The tally as written
  // ---------------------------------------------------------------------------

  /** One turn of the inner loop, as written: membership is checked on the raw
      name but the entry touched is the title-cased one. A fresh raw name sets
      its title's count to 1 (even when that title already has a count); a
      raw name already present as a key reads its title's count, which raises
      `KeyError` (`None`) when the title is not a key. */
  function CountMention(tally: Tally, person: string, title: string -> string): Option<Tally>
  {
    if person !in KeySet(tally) then Some(Put(tally, title(person), 1))
    else
      match Lookup(tally, title(person))
      case None => None
      case Some(c) => Some(Put(tally, title(person), c + 1))
  }

  function CountMentions(tally: Tally, names: seq<string>, title: string -> string): Option<Tally>
    decreases |names|
  {
    if |names| == 0 then Some(tally)
    else
      match CountMention(tally, names[0], title)
      case None => None
      case Some(next) => CountMentions(next, names[1..], title)
  }

  /** The outer loop over the column's cells, skipping non-strings. */
  function TallyCells(tally: Tally, cells: seq<PeopleCell>, title: string -> string): Option<Tally>
    decreases |cells|
  {
    if |cells| == 0 then Some(tally)
    else
      match CountMentions(tally, NamesIn(cells[0]), title)
      case None => None
      case Some(next) => TallyCells(next, cells[1..], title)
  }

  /** `calculate_most_mentioned`: the tally ranked by `sort_dict_by_value(_, True)`. */
  function CalculateMostMentioned(cells: seq<PeopleCell>, title: string -> string): (r: Option<seq<(string, int)>>)
    ensures r.Some? <==> TallyCells([], cells, title).Some?
    ensures r.Some? ==> SortedByValue(r.value, true) && multiset(r.value) == multiset(TallyCells([], cells, title).value)
  {
    match TallyCells([], cells, title)
    case None => None
    case Some(tally) => Some(SortDictByValue(tally, true))
  }

  // ---------------------------------------------------------------------------
  // Structure of the tally
  // ---------------------------------------------------------------------------

  lemma {:induction false} CountMentionsAppend(tally: Tally, a: seq<string>, b: seq<string>, title: string -> string)
    ensures CountMentions(tally, a + b, title)
            == match CountMentions(tally, a, title)
               case None => None
               case Some(mid) => CountMentions(mid, b, title)
    decreases |a|
  {
    if |a| == 0 {
      assert a + b == b;
    } else {
      assert (a + b)[0] == a[0] && (a + b)[1..] == a[1..] + b;
      match CountMention(tally, a[0], title)
      case None =>
      case Some(next) => CountMentionsAppend(next, a[1..], b, title);
    }
  }

  /** The cell-by-cell loop is one loop over all mentioned names. */
  lemma {:induction false} TallyCellsFlat(tally: Tally, cells: seq<PeopleCell>, title: string -> string)
    ensures TallyCells(tally, cells, title) == CountMentions(tally, Mentioned(cells), title)
    decreases |cells|
  {
    if |cells| > 0 {
      CountMentionsAppend(tally, NamesIn(cells[0]), Mentioned(cells[1..]), title);
      match CountMentions(tally, NamesIn(cells[0]), title)
      case None =>
      case Some(next) => TallyCellsFlat(next, cells[1..], title);
    }
  }

  lemma {:induction false} MentionedAppend(a: seq<PeopleCell>, b: seq<PeopleCell>)
    ensures Mentioned(a + b) == Mentioned(a) + Mentioned(b)
    decreases |a|
  {
    if |a| == 0 {
      assert a + b == b;
    } else {
      assert (a + b)[0] == a[0] && (a + b)[1..] == a[1..] + b;
      MentionedAppend(a[1..], b);
    }
  }

  /** A non-string cell, wherever it sits, changes nothing in the ranking. */
  lemma NonStringCellIgnored(a: seq<PeopleCell>, b: seq<PeopleCell>, title: string -> string)
    ensures CalculateMostMentioned(a + [NotText] + b, title) == CalculateMostMentioned(a + b, title)
  {
    MentionedAppend(a + [NotText], b);
    MentionedAppend(a, [NotText]);
    MentionedAppend(a, b);
    assert Mentioned([NotText]) == [] by {
      assert [NotText][1..] == [];
    }
    assert Mentioned(a) + [] == Mentioned(a);
    TallyCellsFlat([], a + [NotText] + b, title);
    TallyCellsFlat([], a + b, title);
  }

  /** What every tally entry satisfies: keys distinct, each key the title of
      some name seen, each count at least 1. */
  predicate WellFormed(tally: Tally, seen: seq<string>, title: string -> string)
  {
    && DistinctKeys(tally)
    && (forall i :: 0 <= i < |tally| ==> tally[i].0 in Titled(seen, title))
    && (forall i :: 0 <= i < |tally| ==> tally[i].1 >= 1)
  }

  lemma CountMentionWellFormed(tally: Tally, seen: seq<string>, person: string, title: string -> string)
    requires WellFormed(tally, seen, title)
    ensures match CountMention(tally, person, title)
            case None => true
            case Some(next) => WellFormed(next, seen + [person], title)
  {
    var key := title(person);
    TitledAppend(seen, [person], title);
    var titled := Titled(seen + [person], title);
    assert titled == Titled(seen, title) + [key];
    match CountMention(tally, person, title)
    case None =>
    case Some(next) =>
      var count := next[|next| - 1].1;
      var c: int := if person !in KeySet(tally) then 1 else Lookup(tally, key).value + 1;
      assert c >= 1 by {
        if person in KeySet(tally) {
          var old_ := Lookup(tally, key).value;
          LookupFound(tally, key);
          var j :| 0 <= j < |tally| && tally[j] == (key, old_);
        }
      }
      assert next == Put(tally, key, c);
      PutDistinct(tally, key, c);
      PutEntries(tally, key, c);
      forall i | 0 <= i < |next|
        ensures next[i].0 in titled && next[i].1 >= 1
      {
        if next[i] != (key, c) {
          var j :| 0 <= j < |tally| && tally[j] == next[i];
        }
      }
  }

  lemma {:induction false} CountMentionsWellFormed(tally: Tally, seen: seq<string>, names: seq<string>, title: string -> string)
    requires WellFormed(tally, seen, title)
    ensures match CountMentions(tally, names, title)
            case None => true
            case Some(r) => WellFormed(r, seen + names, title)
    decreases |names|
  {
    if |names| > 0 {
      CountMentionWellFormed(tally, seen, names[0], title);
      match CountMention(tally, names[0], title)
      case None =>
      case Some(next) =>
        CountMentionsWellFormed(next, seen + [names[0]], names[1..], title);
        assert seen + [names[0]] + names[1..] == seen + names;
    } else {
      assert seen + names == seen;
    }
  }

  /** Whatever the column, a ranking that is produced lists distinct keys,
      each the title-case of some mentioned name, each counted at least once,
      counts non-increasing. */
  lemma RankingShape(cells: seq<PeopleCell>, title: string -> string)
    ensures match CalculateMostMentioned(cells, title)
            case None => true
            case Some(ranked) =>
              && SortedByValue(ranked, true)
              && DistinctKeys(ranked)
              && (forall i :: 0 <= i < |ranked| ==> ranked[i].1 >= 1 && ranked[i].0 in Titled(Mentioned(cells), title))
              && multiset(Keys(ranked)) == multiset(Keys(TallyCells([], cells, title).value))
  {
    var names := Mentioned(cells);
    assert TallyCells([], cells, title) == CountMentions([], names, title) by {
      TallyCellsFlat([], cells, title);
    }
    match CountMentions([], names, title)
    case None =>
    case Some(tally) =>
      assert WellFormed(tally, names, title) by {
        CountMentionsWellFormed([], [], names, title);
        assert [] + names == names;
      }
      var ranked := SortDictByValue(tally, true);
      assert multiset(Keys(ranked)) == multiset(Keys(tally)) by {
        SortKeepsKeys(tally, true);
      }
      assert DistinctKeys(ranked) by {
        SortKeepsDistinct(tally, true);
      }
      forall i | 0 <= i < |ranked|
        ensures ranked[i].1 >= 1 && ranked[i].0 in Titled(names, title)
      {
        assert ranked[i] in multiset(tally);
        var j :| 0 <= j < |tally| && tally[j] == ranked[i];
      }
  }

  // ---------------------------------------------------------------------------
  // Counting, and the intended tally
  // ---------------------------------------------------------------------------

  /** One turn of the inner loop as evidently intended: membership is checked
      on the title-cased name, the key actually stored. */
  function CountMentionIntended(tally: Tally, person: string, title: string -> string): Tally
  {
    match Lookup(tally, title(person))
    case None => Put(tally, title(person), 1)
    case Some(c) => Put(tally, title(person), c + 1)
  }

  function CountMentionsIntended(tally: Tally, names: seq<string>, title: string -> string): Tally
    decreases |names|
  {
    if |names| == 0 then tally
    else CountMentionsIntended(CountMentionIntended(tally, names[0], title), names[1..], title)
  }

  /** The corrected `calculate_most_mentioned`: it never raises. */
  function CalculateMostMentionedIntended(cells: seq<PeopleCell>, title: string -> string): (r: seq<(string, int)>)
    ensures SortedByValue(r, true)
    ensures multiset(r) == multiset(CountMentionsIntended([], Mentioned(cells), title))
  {
    SortDictByValue(CountMentionsIntended([], Mentioned(cells), title), true)
  }

  /** A count after `n` more occurrences; absent stays absent only for `n == 0`. */
  function AddCount(count: Option<int>, n: nat): Option<int>
  {
    match count
    case None => if n == 0 then None else Some(n)
    case Some(c) => Some(c + n)
  }

  lemma AddCountTwice(count: Option<int>, a: nat, b: nat)
    ensures AddCount(AddCount(count, a), b) == AddCount(count, a + b)
  {
  }

  lemma IntendedStepCounts(tally: Tally, p: string, title: string -> string, k: string)
    ensures Lookup(CountMentionIntended(tally, p, title), k)
            == AddCount(Lookup(tally, k), if title(p) == k then 1 else 0)
  {
    var key := title(p);
    var c := match Lookup(tally, key) case None => 1 case Some(c) => c + 1;
    assert CountMentionIntended(tally, p, title) == Put(tally, key, c);
    PutLookup(tally, key, c, k);
  }

  lemma IntendedStepDistinct(tally: Tally, p: string, title: string -> string)
    requires DistinctKeys(tally)
    ensures DistinctKeys(CountMentionIntended(tally, p, title))
  {
    var key := title(p);
    match Lookup(tally, key)
    case None => PutDistinct(tally, key, 1);
    case Some(c) => PutDistinct(tally, key, c + 1);
  }

  /** How many entries of `names` equal `k`. */
  function Occurrences(names: seq<string>, k: string): nat
  {
    if |names| == 0 then 0 else (if names[0] == k then 1 else 0) + Occurrences(names[1..], k)
  }

  lemma {:induction false} OccurrencesIsMultiplicity(names: seq<string>, k: string)
    ensures Occurrences(names, k) == multiset(names)[k]
    decreases |names|
  {
    if |names| > 0 {
      OccurrencesIsMultiplicity(names[1..], k);
      assert names == [names[0]] + names[1..];
      assert multiset(names) == multiset{names[0]} + multiset(names[1..]);
    }
  }

  /** The corrected tally counts, for every key, how many names title-case to it. */
  lemma {:induction false} IntendedCounts(tally: Tally, names: seq<string>, title: string -> string, k: string)
    ensures Lookup(CountMentionsIntended(tally, names, title), k)
            == AddCount(Lookup(tally, k), Occurrences(Titled(names, title), k))
    decreases |names|
  {
    if |names| > 0 {
      var next := CountMentionIntended(tally, names[0], title);
      var here: nat := if title(names[0]) == k then 1 else 0;
      var later: nat := Occurrences(Titled(names[1..], title), k);
      assert Occurrences(Titled(names, title), k) == here + later by {
        assert Titled(names, title) == [title(names[0])] + Titled(names[1..], title);
      }
      assert Lookup(CountMentionsIntended(next, names[1..], title), k) == AddCount(Lookup(next, k), later) by {
        IntendedCounts(next, names[1..], title, k);
      }
      assert Lookup(next, k) == AddCount(Lookup(tally, k), here) by {
        IntendedStepCounts(tally, names[0], title, k);
      }
      AddCountTwice(Lookup(tally, k), here, later);
    }
  }

  lemma {:induction false} IntendedKeepsDistinct(tally: Tally, names: seq<string>, title: string -> string)
    requires DistinctKeys(tally)
    ensures DistinctKeys(CountMentionsIntended(tally, names, title))
    decreases |names|
  {
    if |names| > 0 {
      IntendedStepDistinct(tally, names[0], title);
      IntendedKeepsDistinct(CountMentionIntended(tally, names[0], title), names[1..], title);
    }
  }

  /** The corrected ranking pairs every key, each listed once, with the
      number of mentioned names whose title-case it is, lists every such
      title, and is ordered by count, largest first. */
  lemma IntendedRanking(cells: seq<PeopleCell>, title: string -> string)
    ensures var ranked := CalculateMostMentionedIntended(cells, title);
      && SortedByValue(ranked, true)
      && DistinctKeys(ranked)
      && (forall i :: 0 <= i < |ranked| ==> ranked[i].1 == multiset(Titled(Mentioned(cells), title))[ranked[i].0])
      && (forall q :: q in Titled(Mentioned(cells), title) ==> q in Keys(ranked))
  {
    var names := Mentioned(cells);
    var tally := CountMentionsIntended([], names, title);
    var ranked := SortDictByValue(tally, true);
    assert DistinctKeys(ranked) by {
      IntendedKeepsDistinct([], names, title);
      SortKeepsDistinct(tally, true);
    }
    RankedCounts(names, title, ranked);
    RankedTitles(names, title, ranked);
  }

  /** Each pair of the corrected ranking holds its key's multiplicity among
      the title-cased names. */
  lemma RankedCounts(names: seq<string>, title: string -> string, ranked: seq<(string, int)>)
    requires ranked == SortDictByValue(CountMentionsIntended([], names, title), true)
    ensures forall i :: 0 <= i < |ranked| ==> ranked[i].1 == multiset(Titled(names, title))[ranked[i].0]
  {
    var tally := CountMentionsIntended([], names, title);
    assert DistinctKeys(tally) by {
      IntendedKeepsDistinct([], names, title);
    }
    forall i | 0 <= i < |ranked|
      ensures ranked[i].1 == multiset(Titled(names, title))[ranked[i].0]
    {
      var k := ranked[i].0;
      assert ranked[i] in tally by {
        assert ranked[i] in multiset(tally);
      }
      assert Lookup(tally, k) == Some(ranked[i].1) by {
        LookupOfPair(tally, k, ranked[i].1);
      }
      assert Lookup(tally, k) == AddCount(None, multiset(Titled(names, title))[k]) by {
        IntendedCounts([], names, title, k);
        OccurrencesIsMultiplicity(Titled(names, title), k);
      }
    }
  }

  /** Every title-cased name is a key of the corrected ranking. */
  lemma RankedTitles(names: seq<string>, title: string -> string, ranked: seq<(string, int)>)
    requires ranked == SortDictByValue(CountMentionsIntended([], names, title), true)
    ensures forall q :: q in Titled(names, title) ==> q in Keys(ranked)
  {
    var tally := CountMentionsIntended([], names, title);
    assert multiset(Keys(ranked)) == multiset(Keys(tally)) by {
      SortKeepsKeys(tally, true);
    }
    forall q | q in Titled(names, title)
      ensures q in Keys(ranked)
    {
      assert Lookup(tally, q).Some? by {
        assert multiset(Titled(names, title))[q] > 0;
        IntendedCounts([], names, title, q);
        OccurrencesIsMultiplicity(Titled(names, title), q);
      }
      assert q in Keys(tally) by {
        LookupFound(tally, q);
        KeysHas(tally, (q, Lookup(tally, q).value));
      }
      assert q in multiset(Keys(ranked));
    }
  }

  lemma {:induction false} KeysHas(s: seq<(string, int)>, p: (string, int))
    requires p in s
    ensures p.0 in Keys(s)
    decreases |s|
  {
    if s[0] != p {
      assert p in s[1..];
      KeysHas(s[1..], p);
    }
  }

  /** When title-casing leaves every mentioned name as it is, the tally as
      written takes the same steps as the intended one. */
  lemma {:induction false} AsWrittenAgreesOnTitledNames(tally: Tally, names: seq<string>, title: string -> string)
    requires forall i :: 0 <= i < |names| ==> title(names[i]) == names[i]
    ensures CountMentions(tally, names, title) == Some(CountMentionsIntended(tally, names, title))
    decreases |names|
  {
    if |names| > 0 {
      LookupFound(tally, names[0]);
      AsWrittenAgreesOnTitledNames(CountMentionIntended(tally, names[0], title), names[1..], title);
    }
  }

  lemma {:induction false} TitledIdentity(names: seq<string>, title: string -> string)
    requires forall i :: 0 <= i < |names| ==> title(names[i]) == names[i]
    ensures Titled(names, title) == names
    decreases |names|
  {
    if |names| > 0 {
      TitledIdentity(names[1..], title);
    }
  }

  /** When every mentioned name is already title-cased, the ranking as
      written exists and pairs every key with the number of times it is
      mentioned, listing every mentioned name. */
  lemma CountsWhenNamesAreTitled(cells: seq<PeopleCell>, title: string -> string)
    requires forall p :: p in Mentioned(cells) ==> title(p) == p
    ensures CalculateMostMentioned(cells, title).Some?
    ensures var ranked := CalculateMostMentioned(cells, title).value;
      && (forall i :: 0 <= i < |ranked| ==> ranked[i].1 == multiset(Mentioned(cells))[ranked[i].0])
      && (forall p :: p in Mentioned(cells) ==> p in Keys(ranked))
  {
    var names := Mentioned(cells);
    TallyCellsFlat([], cells, title);
    AsWrittenAgreesOnTitledNames([], names, title);
    TitledIdentity(names, title);
    IntendedRanking(cells, title);
  }

  /** The quirk: a name written in lower case on two days is counted once,
      because the raw name is never a key, so each mention resets its
      title's count to 1. The intended tally counts it twice. */
  lemma LowerCaseNameUndercounted()
    ensures var title := (s: string) => if s == "bob" then "Bob" else s;
      && CalculateMostMentioned([Names("bob"), Names("bob")], title) == Some([("Bob", 1)])
      && CalculateMostMentionedIntended([Names("bob"), Names("bob")], title) == [("Bob", 2)]
  {
    var title := (s: string) => if s == "bob" then "Bob" else s;
    var cells := [Names("bob"), Names("bob")];
    SplitWithoutSeparator("bob", ", ");
    assert Mentioned(cells) == ["bob", "bob"] by {
      assert cells[1..] == [Names("bob")];
      assert Mentioned(cells[1..]) == ["bob"];
    }
    TallyCellsFlat([], cells, title);
    var once := Put([], "Bob", 1);
    assert once == [("Bob", 1)];
    assert "bob" !in KeySet(once);
    assert CountMentions([], ["bob", "bob"], title) == Some([("Bob", 1)]) by {
      assert ["bob", "bob"][1..] == ["bob"];
      assert CountMention([], "bob", title) == Some(once);
      assert title("bob") == "Bob";
      assert Put(once, "Bob", 1) == once;
      assert CountMention(once, "bob", title) == Some(once);
      assert ["bob"][1..] == [];
    }
    assert CountMentionsIntended([], ["bob", "bob"], title) == [("Bob", 2)] by {
      assert ["bob", "bob"][1..] == ["bob"];
      assert CountMentionIntended([], "bob", title) == once;
      assert Lookup(once, "Bob") == Some(1);
      assert CountMentionIntended(once, "bob", title) == [("Bob", 2)];
      assert ["bob"][1..] == [];
    }
    assert SortDictByValue([("Bob", 1)], true) == [("Bob", 1)];
    assert SortDictByValue([("Bob", 2)], true) == [("Bob", 2)];
  }
}

=== FILE: missing_days.dfy ===
/** `get_missing_entry_dates` (main.py:179-193): the days with no diary entry
    between the last entry and today. Dates are day ordinals (consecutive
    integers for consecutive calendar days), so one `timedelta(days=1)` step
    back is a subtraction of 1. */
module MissingDays {
  import opened Wrappers

  /** The days strictly after `lastEntry` and strictly before `today`, in
      calendar order: exactly those days, each once, ascending. */
  function DaysBetween(lastEntry: int, today: int): (days: seq<int>)
    requires lastEntry < today
    ensures |days| == today - lastEntry - 1
    ensures forall i, j :: 0 <= i < j < |days| ==> days[i] < days[j]
    ensures forall d :: d in days <==> lastEntry < d < today
  {
    var days := seq(today - lastEntry - 1, i => lastEntry + 1 + i);
    EveryDayListed(lastEntry, today, days);
    days
  }

  lemma EveryDayListed(lastEntry: int, today: int, days: seq<int>)
    requires |days| == today - lastEntry - 1
    requires forall i :: 0 <= i < |days| ==> days[i] == lastEntry + 1 + i
    ensures forall d :: lastEntry < d < today ==> d in days
  {
    forall d | lastEntry < d < today
      ensures d in days
    {
      assert days[d - lastEntry - 1] == d;
    }
  }

  /** The ordinal of 0001-01-01, `datetime.min`: no day lies before it. */
  const MinDay := 1

  /** The day the walk back from `today` lands on at its `less`-th step.
      Stepping before `MinDay` raises `OverflowError` in `datetime`, which is
      `None` here. */
  function StepBack(today: int, less: nat): Option<int>
  {
    if today - less < MinDay then None else Some(today - less)
  }

  /** The walk's exit test `one_less_day == last_entry` is met at some step
      if and only if the last entry lies on or after `MinDay` and strictly
      before today; otherwise the walk runs on until it raises. */
  lemma WalkStopsIff(lastEntry: int, today: int)
    ensures (exists less: nat :: less >= 1 && StepBack(today, less) == Some(lastEntry))
            <==> MinDay <= lastEntry < today
  {
    if MinDay <= lastEntry < today {
      assert StepBack(today, today - lastEntry) == Some(lastEntry);
    }
  }

  function Reverse(s: seq<int>): (r: seq<int>)
    ensures |r| == |s|
    ensures forall i :: 0 <= i < |s| ==> r[i] == s[|s| - 1 - i]
  {
    if |s| == 0 then [] else Reverse(s[1..]) + [s[0]]
  }

  /** The source's loop: starting from no day, step back one day at a time
      from `today`, collecting each day reached until the day reached is
      `lastEntry`, then reverse the collection. When the last entry lies
      between `MinDay` and yesterday the result is exactly the days strictly
      between the two, oldest first. Otherwise (the last entry is today, in
      the future, or before `MinDay`) the walk never meets it and raises
      `OverflowError` once it steps past `MinDay`: `None`. */
  method GetMissingEntryDates(lastEntry: int, today: int) returns (missing: Option<seq<int>>)
    requires MinDay <= today
    ensures missing.Some? <==> MinDay <= lastEntry < today
    ensures missing.Some? ==> missing.value == DaysBetween(lastEntry, today)
  {
    var collected: seq<int> := [];
    var oneLessDay: Option<int> := None;
    var less: nat := 1;
    while oneLessDay != Some(lastEntry)
      invariant 1 <= less <= today
      invariant less == 1 <==> oneLessDay == None
      invariant less > 1 ==> oneLessDay == StepBack(today, less - 1) == Some(today - (less - 1))
      invariant MinDay <= lastEntry < today ==> less - 1 <= today - lastEntry
      invariant |collected| == if less == 1 then 0 else less - 2
      invariant forall j :: 0 <= j < |collected| ==> collected[j] == today - 1 - j
      decreases today - less
    {
      if oneLessDay != None {
        collected := collected + [oneLessDay.value];
      }
      match StepBack(today, less)
      case None =>
        return None;
      case Some(day) =>
        oneLessDay := Some(day);
        less := less + 1;
    }
    missing := Some(Reverse(collected));
  }

  /** Consecutive days leave nothing to catch up on. */
  lemma ConsecutiveDaysMissNothing(lastEntry: int)
    ensures DaysBetween(lastEntry, lastEntry + 1) == []
  {
  }
}

=== FILE: sequences.dfy ===
/** Small facts about sequences and multisets shared by the other modules. */
module Sequences {

  /** If `b` is a rearrangement of `a`, the first element of `a` sits somewhere
      in `b`, and what remains on both sides is again a rearrangement. */
  lemma PickMatch<T>(a: seq<T>, b: seq<T>) returns (k: nat)
    requires |a| > 0 && multiset(a) == multiset(b)
    ensures k < |b| && b[k] == a[0]
    ensures b == b[..k] + [b[k]] + b[k + 1..]
    ensures multiset(a[1..]) == multiset(b[..k] + b[k + 1..])
  {
    assert a[0] in multiset(b);
    k :| 0 <= k < |b| && b[k] == a[0];
    assert b == b[..k] + [b[k]] + b[k + 1..];
    assert a == [a[0]] + a[1..];
    assert multiset(a[1..]) == multiset(a) - multiset{a[0]};
    assert multiset(b[..k] + b[k + 1..]) == multiset(b) - multiset{b[k]};
  }

  /** No element occurs twice. */
  predicate NoDuplicates<T(==)>(s: seq<T>)
  {
    forall i, j :: 0 <= i < j < |s| ==> s[i] != s[j]
  }

  /** Without duplicates, every element is counted at most once. */
  lemma {:induction false} NoDuplicatesCountsOnce<T>(s: seq<T>)
    requires NoDuplicates(s)
    ensures forall x :: multiset(s)[x] <= 1
    decreases |s|
  {
    if |s| > 0 {
      var t := s[1..];
      assert NoDuplicates(t) by {
        forall i, j | 0 <= i < j < |t|
          ensures t[i] != t[j]
        {
          assert t[i] == s[i + 1] && t[j] == s[j + 1];
        }
      }
      NoDuplicatesCountsOnce(t);
      assert s[0] !in t by {
        forall j | 0 <= j < |t|
          ensures t[j] != s[0]
        {
          assert t[j] == s[j + 1];
        }
      }
      assert s == [s[0]] + t;
      assert multiset(s) == multiset{s[0]} + multiset(t);
    }
  }

  /** Elements each counted at most once occur at most once. */
  lemma {:induction false} CountsOnceNoDuplicates<T>(s: seq<T>)
    requires forall x :: multiset(s)[x] <= 1
    ensures NoDuplicates(s)
    decreases |s|
  {
    if |s| > 0 {
      var t := s[1..];
      assert s == [s[0]] + t;
      assert multiset(s) == multiset{s[0]} + multiset(t);
      assert forall x :: multiset(t)[x] <= multiset(s)[x];
      CountsOnceNoDuplicates(t);
      assert s[0] !in multiset(t);
      forall i, j | 0 <= i < j < |s|
        ensures s[i] != s[j]
      {
        assert s[j] == t[j - 1];
        if i > 0 {
          assert s[i] == t[i - 1];
        }
      }
    }
  }

  /** Rearranging a sequence without duplicates leaves none. */
  lemma PermutationNoDuplicates<T>(a: seq<T>, b: seq<T>)
    requires NoDuplicates(a) && multiset(a) == multiset(b)
    ensures NoDuplicates(b)
  {
    NoDuplicatesCountsOnce(a);
    CountsOnceNoDuplicates(b);
  }
}

=== FILE: shell.dfy ===
/** The query shell's `process_input` (main.py:39-72) and the part of
    `handle_args` (main.py:80-95) that decides anything: a line is split on
    whitespace and dispatched on its first token. The diary table is passed
    by value, so no command can change the stored table. */
module Shell {
  import opened Wrappers
  import opened Strings
  import opened Durations
  import opened Mentions

  /** One diary row, as the CSV columns hold it. Dates are day ordinals;
      `happiness` is the rating in half points (2 for 1.0 up to 10 for 5.0). */
  datatype Record = Record(
    date: int,
    year: int,
    month: string,
    weekday: string,
    summary: Option<string>,
    happiness: Option<int>,
    duration: DurationCell,
    people: PeopleCell)

  type Table = seq<Record>

  /** What a command prints. */
  datatype Effect =
    | ShowTable(rows: Table)       // print(data) or print(data.loc[...])
    | MissingDate                  // `sd` without its argument
    | MissingYear                  // `yr` without its argument
    | UnknownCommand(command: string)
    | UnknownArgument(argument: string)
    | Nothing                      // the empty `handle_sd` / `get_random_entry`, and `exit`

  /** The exceptions `process_input` lets escape. */
  datatype Failure = IndexError | ValueError

  /** How one call of `process_input` ends: it returns a status (0 ends the
      shell loop) after printing, it raises, or it never returns. */
  datatype Outcome =
    | Returned(status: int, effect: Effect)
    | Raised(failure: Failure)
    | Diverges

  /** The argument flags `handle_args` recognises. Its loop never advances,
      so on any of them it spins forever. */
  predicate IsFlag(token: string)
  {
    token == "-r" || token == "-c" || token == "-w" || token == "-a" || token == "-s"
  }

  /** `handle_args(command, data)`: only `command[1]` is ever examined, and
      only while it is non-empty (`while arg`). A recognised flag loops
      forever; anything else is reported as an unknown argument and the loop
      ends. */
  function HandleArgs(command: seq<string>): (r: Outcome)
    requires |command| >= 2
    ensures r.Diverges? <==> IsFlag(command[1])
    ensures r.Returned? ==> r.status == 1
    ensures r.Returned? && |command[1]| > 0 ==> r.effect == UnknownArgument(command[1])
    ensures |command[1]| == 0 ==> r == Returned(1, Nothing)
  {
    if |command[1]| == 0 then Returned(1, Nothing)
    else if IsFlag(command[1]) then Diverges
    else Returned(1, UnknownArgument(command[1]))
  }

  /** `data.loc[data['year'] == year]`. */
  function RowsOfYear(table: Table, year: int): (rows: Table)
    ensures forall i :: 0 <= i < |rows| ==> rows[i].year == year
    ensures forall x :: x in table && x.year == year ==> x in rows
    ensures forall x: Record :: x.year == year ==> multiset(rows)[x] == multiset(table)[x]
    ensures IsSubsequence(rows, table)
  {
    if |table| == 0 then []
    else
      var rest := RowsOfYear(table[1..], year);
      assert table == [table[0]] + table[1..];
      if table[0].year == year then
        var rows := [table[0]] + rest;
        assert rows[1..] == rest;
        rows
      else
        rest
  }

  /** `a` can be obtained from `b` by deleting elements: the rows kept stay in
      their original order. */
  predicate IsSubsequence(a: Table, b: Table)
    decreases |b|
  {
    if |a| == 0 then true
    else if |b| == 0 then false
    else if a[0] == b[0] then IsSubsequence(a[1..], b[1..])
    else IsSubsequence(a, b[1..])
  }

  /** The dispatch on an already split line. */
  function Dispatch(command: seq<string>, table: Table): (r: Outcome)
    ensures r == Raised(IndexError) <==> |command| == 0
    ensures r == Raised(ValueError) <==> |command| == 2 && command[0] == "yr" && ParseInt(command[1]).None?
    ensures r.Diverges? <==>
      || (|command| >= 3 && command[0] == "yr" && IsFlag(command[1]))
      || (|command| >= 2 && command[0] == "all" && IsFlag(command[1]))
    ensures r.Returned? ==> |command| > 0 && (r.status == 0 <==> command[0] == "exit")
    ensures r.Returned? ==> r.status == 0 || r.status == 1
    ensures command == ["sd"] ==> r == Returned(1, MissingDate)
    ensures |command| >= 2 && command[0] == "sd" ==> r == Returned(1, Nothing)
    ensures |command| >= 1 && command[0] == "rd" ==> r == Returned(1, Nothing)
    ensures command == ["yr"] ==> r == Returned(1, MissingYear)
    ensures |command| == 2 && command[0] == "yr" && ParseInt(command[1]).Some?
            ==> r == Returned(1, ShowTable(RowsOfYear(table, ParseInt(command[1]).value)))
    ensures command == ["all"] ==> r == Returned(1, ShowTable(table))
  {
    if |command| == 0 then Raised(IndexError)
    else if command[0] == "sd" then
      if |command| == 1 then Returned(1, MissingDate) else Returned(1, Nothing)
    else if command[0] == "rd" then Returned(1, Nothing)
    else if command[0] == "yr" then
      if |command| == 1 then Returned(1, MissingYear)
      else if |command| == 2 then
        match ParseInt(command[1])
        case None => Raised(ValueError)
        case Some(year) => Returned(1, ShowTable(RowsOfYear(table, year)))
      else HandleArgs(command)
    else if command[0] == "all" then
      if |command| == 1 then Returned(1, ShowTable(table)) else HandleArgs(command)
    else if command[0] == "exit" then Returned(0, Nothing)
    else Returned(1, UnknownCommand(command[0]))
  }

  /** `process_input(line)`: split the line on whitespace and dispatch. It
      raises `IndexError` at `command[0]` exactly when the line holds no
      word, i.e. it is empty or all whitespace. */
  function ProcessInput(line: string, table: Table): (r: Outcome)
    ensures r == Raised(IndexError) <==> NoWords(line)
  {
    NoWordsIffNoTokens(line);
    Dispatch(Tokenize(line), table)
  }

  /** `exit` is the only way to end the shell: `process_input` returns 0
      exactly when the first word is `exit`, and every other return is 1. */
  lemma ExitIsTheOnlyZero(line: string, table: Table)
    ensures ProcessInput(line, table).Returned? && ProcessInput(line, table).status == 0
            <==> |Tokenize(line)| > 0 && Tokenize(line)[0] == "exit"
    ensures ProcessInput(line, table).Returned? ==> ProcessInput(line, table).status in {0, 1}
  {
  }

  predicate NoWords(line: string)
  {
    forall i :: 0 <= i < |line| ==> IsSpace(line[i])
  }

  lemma {:induction false} NoWordsIffNoTokens(line: string)
    ensures NoWords(line) <==> Tokenize(line) == []
    decreases |line|
  {
    if |line| > 0 {
      NoWordsIffNoTokens(line[1..]);
      assert NoWords(line) <==> IsSpace(line[0]) && NoWords(line[1..]) by {
        if IsSpace(line[0]) && NoWords(line[1..]) {
          forall i | 0 <= i < |line|
            ensures IsSpace(line[i])
          {
            if i > 0 {
              assert line[i] == line[1..][i - 1];
            }
          }
        }
        if NoWords(line) {
          forall i | 0 <= i < |line[1..]|
            ensures IsSpace(line[1..][i])
          {
            assert line[1..][i] == line[i + 1];
          }
        }
      }
    }
  }

  /** `all` alone prints the whole table, every row in order. */
  lemma AllShowsEveryRow(line: string, table: Table)
    requires Tokenize(line) == ["all"]
    ensures ProcessInput(line, table) == Returned(1, ShowTable(table))
  {
  }

  /** `yr Y`, typed as two words, prints exactly the rows of year `Y`, in
      table order. */
  lemma YearQuery(year: nat, table: Table)
    ensures ProcessInput("yr " + NatToDecimal(year), table) == Returned(1, ShowTable(RowsOfYear(table, year)))
  {
    var digits := NatToDecimal(year);
    assert NoSpace(digits) by {
      forall i | 0 <= i < |digits|
        ensures !IsSpace(digits[i])
      {
        assert IsDigit(digits[i]);
      }
    }
    assert NoSpace("yr");
    assert Join(["yr", digits], " ") == "yr " + digits by {
      assert ["yr", digits][1..] == [digits];
    }
    TokenizeJoin(["yr", digits]);
    ParseIntOfDecimal(year);
  }

  /** A command that is not a known command word is reported back and the
      shell carries on. */
  lemma UnknownCommandReported(line: string, table: Table)
    requires |Tokenize(line)| > 0
    requires Tokenize(line)[0] !in {"sd", "rd", "yr", "all", "exit"}
    ensures ProcessInput(line, table) == Returned(1, UnknownCommand(Tokenize(line)[0]))
  {
  }

  /** Words after `all`, or more than one word after `yr`, go to
      `handle_args`, which looks only at `command[1]`: after `yr` that is the
      year word itself. An unrecognised non-empty word is reported, whatever
      follows it. */
  lemma ExtraArgumentReported(command: seq<string>, table: Table)
    requires |command| >= 2 && !IsFlag(command[1])
    requires command[0] == "all" || (command[0] == "yr" && |command| >= 3)
    ensures Dispatch(command, table)
            == Returned(1, if |command[1]| == 0 then Nothing else UnknownArgument(command[1]))
  {
  }
}

=== FILE: sort_by_value.dfy ===
/** `sort_dict_by_value` (main.py:432-437): the pairs of a dictionary ordered
    by value with Python's stable `sorted`, largest first when `order` is
    truthy. `sorted(..., reverse=True)` keeps equal values in their original
    order, so ties stay in insertion order in both directions. */
module SortByValue {
  import opened Dicts
  import opened Sequences

  /** `a` may stand before `b`: non-decreasing ascending, non-increasing
      descending. */
  predicate Precedes(a: int, b: int, descending: bool)
  {
    if descending then a >= b else a <= b
  }

  predicate SortedByValue<K>(s: seq<(K, int)>, descending: bool)
  {
    forall i, j :: 0 <= i < j < |s| ==> Precedes(s[i].1, s[j].1, descending)
  }

  /** The pairs holding value `v`, in their order in `s`. */
  function WithValue<K>(s: seq<(K, int)>, v: int): seq<(K, int)>
  {
    if |s| == 0 then []
    else (if s[0].1 == v then [s[0]] else []) + WithValue(s[1..], v)
  }

  /** Place `x` in front of the first pair it may precede. */
  function Insert<K>(x: (K, int), t: seq<(K, int)>, descending: bool): (r: seq<(K, int)>)
    ensures multiset(r) == multiset(t) + multiset{x}
  {
    if |t| == 0 || Precedes(x.1, t[0].1, descending) then [x] + t
    else
      var rest := Insert(x, t[1..], descending);
      assert t == [t[0]] + t[1..];
      [t[0]] + rest
  }

  /** Inserting into a sorted sequence keeps it sorted. */
  lemma {:induction false} InsertSorted<K>(x: (K, int), t: seq<(K, int)>, descending: bool)
    requires SortedByValue(t, descending)
    ensures SortedByValue(Insert(x, t, descending), descending)
    decreases |t|
  {
    var r := Insert(x, t, descending);
    if |t| == 0 || Precedes(x.1, t[0].1, descending) {
      assert r == [x] + t;
      forall i, j | 0 <= i < j < |r|
        ensures Precedes(r[i].1, r[j].1, descending)
      {
        if i == 0 {
          assert r[j] == t[j - 1];
        } else {
          assert r[i] == t[i - 1] && r[j] == t[j - 1];
        }
      }
    } else {
      var rest := Insert(x, t[1..], descending);
      InsertSorted(x, t[1..], descending);
      assert r == [t[0]] + rest;
      forall i, j | 0 <= i < j < |r|
        ensures Precedes(r[i].1, r[j].1, descending)
      {
        if i == 0 {
          InsertBound(x, t[1..], descending, t[0].1);
          assert Precedes(t[0].1, rest[j - 1].1, descending);
        } else {
          assert r[i] == rest[i - 1] && r[j] == rest[j - 1];
        }
      }
    }
  }

  /** A value that may precede `x` and every pair of `t` may precede every
      pair of the insertion. */
  lemma {:induction false} InsertBound<K>(x: (K, int), t: seq<(K, int)>, descending: bool, bound: int)
    requires Precedes(bound, x.1, descending)
    requires forall i :: 0 <= i < |t| ==> Precedes(bound, t[i].1, descending)
    ensures forall i :: 0 <= i < |Insert(x, t, descending)| ==> Precedes(bound, Insert(x, t, descending)[i].1, descending)
    decreases |t|
  {
    var r := Insert(x, t, descending);
    if |t| == 0 || Precedes(x.1, t[0].1, descending) {
      assert r == [x] + t;
      assert forall i :: 1 <= i < |r| ==> r[i] == t[i - 1];
    } else {
      var rest := Insert(x, t[1..], descending);
      InsertBound(x, t[1..], descending, bound);
      assert r == [t[0]] + rest;
      assert forall i :: 1 <= i < |r| ==> r[i] == rest[i - 1];
    }
  }

  /** `sort_dict_by_value(pairs, order)` with `descending == bool(order)`: a
      rearrangement of the pairs (so every key keeps its value) ordered by
      value. */
  function SortDictByValue<K>(s: seq<(K, int)>, descending: bool): (r: seq<(K, int)>)
    ensures multiset(r) == multiset(s)
    ensures SortedByValue(r, descending)
  {
    if |s| == 0 then []
    else
      var sortedTail := SortDictByValue(s[1..], descending);
      InsertSorted(s[0], sortedTail, descending);
      assert s == [s[0]] + s[1..];
      Insert(s[0], sortedTail, descending)
  }

  lemma {:induction false} InsertStable<K>(x: (K, int), t: seq<(K, int)>, descending: bool, v: int)
    ensures WithValue(Insert(x, t, descending), v) == (if x.1 == v then [x] else []) + WithValue(t, v)
    decreases |t|
  {
    if |t| == 0 || Precedes(x.1, t[0].1, descending) {
      assert ([x] + t)[1..] == t;
    } else {
      InsertStable(x, t[1..], descending, v);
      var rest := Insert(x, t[1..], descending);
      assert ([t[0]] + rest)[1..] == rest;
      assert t[0].1 != x.1;
      var tail := WithValue(t[1..], v);
      if x.1 == v {
        assert WithValue(t, v) == tail;
        assert WithValue([t[0]] + rest, v) == WithValue(rest, v);
      } else if t[0].1 == v {
        assert WithValue(t, v) == [t[0]] + tail;
        assert WithValue(rest, v) == tail;
      } else {
        assert WithValue(t, v) == tail;
        assert WithValue(rest, v) == tail;
      }
    }
  }

  /** Stability: the pairs sharing any one value come out in the order they
      went in. Together with `SortedByValue` this fixes the result. */
  lemma {:induction false} SortIsStable<K>(s: seq<(K, int)>, descending: bool, v: int)
    ensures WithValue(SortDictByValue(s, descending), v) == WithValue(s, v)
    decreases |s|
  {
    if |s| > 0 {
      SortIsStable(s[1..], descending, v);
      InsertStable(s[0], SortDictByValue(s[1..], descending), descending, v);
    }
  }

  lemma WithValueCons<K>(s: seq<(K, int)>, v: int)
    requires |s| > 0
    ensures s[0].1 == v ==> WithValue(s, v) == [s[0]] + WithValue(s[1..], v)
    ensures s[0].1 != v ==> WithValue(s, v) == WithValue(s[1..], v)
  {
  }

  lemma {:induction false} WithValueFound<K>(s: seq<(K, int)>, v: int) returns (i: nat)
    requires |WithValue(s, v)| > 0
    ensures i < |s| && s[i].1 == v
    decreases |s|
  {
    if s[0].1 == v {
      i := 0;
    } else {
      var j := WithValueFound(s[1..], v);
      i := j + 1;
    }
  }

  /** Being sorted by value and keeping the order within each value pins a
      sequence down: two such sequences are equal. */
  lemma {:induction false} StableOrderUnique<K>(r1: seq<(K, int)>, r2: seq<(K, int)>, descending: bool)
    requires SortedByValue(r1, descending) && SortedByValue(r2, descending)
    requires forall v :: WithValue(r1, v) == WithValue(r2, v)
    ensures r1 == r2
    decreases |r1|
  {
    if |r1| > 0 {
      WithValueCons(r1, r1[0].1);
      var _ := WithValueFound(r2, r1[0].1);
    }
    if |r2| > 0 {
      WithValueCons(r2, r2[0].1);
      var _ := WithValueFound(r1, r2[0].1);
    }
    if |r1| == 0 {
      return;
    }
    var v1, v2 := r1[0].1, r2[0].1;
    WithValueCons(r1, v1);
    WithValueCons(r2, v2);
    var i1 := WithValueFound(r1, v2);
    var i2 := WithValueFound(r2, v1);
    assert Precedes(v1, v2, descending) by {
      if i1 > 0 {
        assert Precedes(r1[0].1, r1[i1].1, descending);
      }
    }
    assert Precedes(v2, v1, descending) by {
      if i2 > 0 {
        assert Precedes(r2[0].1, r2[i2].1, descending);
      }
    }
    assert v1 == v2;
    assert r1[0] == WithValue(r1, v1)[0] == WithValue(r2, v1)[0] == r2[0];
    forall v
      ensures WithValue(r1[1..], v) == WithValue(r2[1..], v)
    {
      WithValueCons(r1, v);
      WithValueCons(r2, v);
      if v == v1 {
        assert [r1[0]] + WithValue(r1[1..], v) == [r2[0]] + WithValue(r2[1..], v);
        assert ([r1[0]] + WithValue(r1[1..], v))[1..] == WithValue(r1[1..], v);
        assert ([r2[0]] + WithValue(r2[1..], v))[1..] == WithValue(r2[1..], v);
      }
    }
    assert SortedByValue(r1[1..], descending) && SortedByValue(r2[1..], descending) by {
      forall i, j | 0 <= i < j < |r1[1..]|
        ensures Precedes(r1[1..][i].1, r1[1..][j].1, descending)
      {
        assert r1[1..][i] == r1[i + 1] && r1[1..][j] == r1[j + 1];
      }
      forall i, j | 0 <= i < j < |r2[1..]|
        ensures Precedes(r2[1..][i].1, r2[1..][j].1, descending)
      {
        assert r2[1..][i] == r2[i + 1] && r2[1..][j] == r2[j + 1];
      }
    }
    StableOrderUnique(r1[1..], r2[1..], descending);
    assert r1 == [r1[0]] + r1[1..] && r2 == [r2[0]] + r2[1..];
  }

  /** `SortDictByValue` is Python's stable sort: any rearrangement that is
      sorted by value and keeps the input order among equal values is it. */
  lemma SortIsThePythonSort<K>(s: seq<(K, int)>, r: seq<(K, int)>, descending: bool)
    requires SortedByValue(r, descending)
    requires forall v :: WithValue(r, v) == WithValue(s, v)
    ensures r == SortDictByValue(s, descending)
  {
    var sorted := SortDictByValue(s, descending);
    forall v
      ensures WithValue(r, v) == WithValue(sorted, v)
    {
      SortIsStable(s, descending, v);
    }
    StableOrderUnique(r, sorted, descending);
  }

  lemma {:induction false} InsertKeys<K>(x: (K, int), t: seq<(K, int)>, descending: bool)
    ensures multiset(Keys(Insert(x, t, descending))) == multiset(Keys(t)) + multiset{x.0}
    decreases |t|
  {
    if |t| == 0 || Precedes(x.1, t[0].1, descending) {
      assert ([x] + t)[1..] == t;
    } else {
      InsertKeys(x, t[1..], descending);
      var rest := Insert(x, t[1..], descending);
      assert ([t[0]] + rest)[1..] == rest;
      assert t == [t[0]] + t[1..];
      assert Keys(t) == [t[0].0] + Keys(t[1..]);
    }
  }

  /** The result is again a dictionary: the keys are the same keys, each once
      if they were once before. */
  lemma {:induction false} SortKeepsKeys<K>(s: seq<(K, int)>, descending: bool)
    ensures multiset(Keys(SortDictByValue(s, descending))) == multiset(Keys(s))
    decreases |s|
  {
    if |s| > 0 {
      var t := SortDictByValue(s[1..], descending);
      var tailKeys := multiset(Keys(s[1..]));
      assert multiset(Keys(t)) == tailKeys by {
        SortKeepsKeys(s[1..], descending);
      }
      assert SortDictByValue(s, descending) == Insert(s[0], t, descending);
      assert multiset(Keys(Insert(s[0], t, descending))) == tailKeys + multiset{s[0].0} by {
        InsertKeys(s[0], t, descending);
      }
      assert multiset(Keys(s)) == multiset{s[0].0} + tailKeys by {
        assert Keys(s) == [s[0].0] + Keys(s[1..]);
      }
    }
  }

  /** A dictionary sorted by value is again a dictionary: no key appears twice. */
  lemma SortKeepsDistinct<K>(s: seq<(K, int)>, descending: bool)
    requires DistinctKeys(s)
    ensures DistinctKeys(SortDictByValue(s, descending))
  {
    var r := SortDictByValue(s, descending);
    DistinctKeysAsSequence(s);
    DistinctKeysAsSequence(r);
    SortKeepsKeys(s, descending);
    PermutationNoDuplicates(Keys(s), Keys(r));
  }
}

=== FILE: strings.dfy ===
/** The few Python string operations the diary shell relies on:
    `str.split(sep)`, `str.split()`, `int(text)` and `str(n)` for naturals. */
module Strings {
  import opened Wrappers

  // ---------------------------------------------------------------------------
  // str.split(sep) and its inverse sep.join(parts)
  // ---------------------------------------------------------------------------

  /** Python's `s.split(sep)` for a non-empty separator: cut at the leftmost
      non-overlapping occurrences of `sep`, keeping empty pieces. */
  function Split(s: string, sep: string): (parts: seq<string>)
    requires |sep| > 0
    ensures |parts| >= 1
    decreases |s|
  {
    if |sep| <= |s| && s[..|sep|] == sep then
      [[]] + Split(s[|sep|..], sep)
    else if |s| == 0 then
      [[]]
    else
      var rest := Split(s[1..], sep);
      [[s[0]] + rest[0]] + rest[1..]
  }

  /** Python's `sep.join(parts)`. */
  function Join(parts: seq<string>, sep: string): string
  {
    if |parts| == 0 then []
    else if |parts| == 1 then parts[0]
    else parts[0] + sep + Join(parts[1..], sep)
  }

  /** Joining the pieces of a split gives back the original text. */
  lemma {:induction false} JoinSplit(s: string, sep: string)
    requires |sep| > 0
    ensures Join(Split(s, sep), sep) == s
    decreases |s|
  {
    if |sep| <= |s| && s[..|sep|] == sep {
      assert s == sep + s[|sep|..];
      JoinSplit(s[|sep|..], sep);
      JoinSplitSepFirst(sep, s[|sep|..]);
    } else if |s| > 0 {
      assert s == [s[0]] + s[1..];
      JoinSplit(s[1..], sep);
      JoinSplitCharFirst(s[0], s[1..], sep);
    }
  }

  /** The step of `JoinSplit` when the text starts with the separator. */
  lemma JoinSplitSepFirst(sep: string, rest: string)
    requires |sep| > 0
    requires Join(Split(rest, sep), sep) == rest
    ensures Join(Split(sep + rest, sep), sep) == sep + rest
  {
    var s := sep + rest;
    assert s[..|sep|] == sep && s[|sep|..] == rest;
    JoinEmptyFirst(Split(rest, sep), sep);
  }

  /** The step of `JoinSplit` when the text does not start with the separator. */
  lemma JoinSplitCharFirst(x: char, rest: string, sep: string)
    requires |sep| > 0 && !(|sep| <= |[x] + rest| && ([x] + rest)[..|sep|] == sep)
    requires Join(Split(rest, sep), sep) == rest
    ensures Join(Split([x] + rest, sep), sep) == [x] + rest
  {
    var s := [x] + rest;
    assert s[0] == x && s[1..] == rest;
    JoinConsFirst(x, Split(rest, sep), sep);
  }

  /** Joining after a leading empty piece starts with the separator. */
  lemma JoinEmptyFirst(tail: seq<string>, sep: string)
    requires |tail| >= 1
    ensures Join([[]] + tail, sep) == sep + Join(tail, sep)
  {
    assert ([[]] + tail)[1..] == tail;
  }

  /** Joining after a character is prepended to the first piece prepends it to
      the whole. */
  lemma JoinConsFirst(x: char, rest: seq<string>, sep: string)
    requires |rest| >= 1
    ensures Join([[x] + rest[0]] + rest[1..], sep) == [x] + Join(rest, sep)
  {
    var parts := [[x] + rest[0]] + rest[1..];
    if |rest| > 1 {
      assert parts[1..] == rest[1..];
      assert Join(rest, sep) == rest[0] + sep + Join(rest[1..], sep);
    }
  }

  /** Text in which the separator's first character never occurs is one piece. */
  lemma {:induction false} SplitWithoutSeparator(a: string, sep: string)
    requires |sep| > 0 && sep[0] !in a
    ensures Split(a, sep) == [a]
    decreases |a|
  {
    if |a| > 0 {
      if |sep| <= |a| {
        assert a[..|sep|][0] != sep[0];
      }
      SplitWithoutSeparator(a[1..], sep);
      assert [a[0]] + a[1..] == a;
    }
  }

  /** Splitting at the first separator: the piece before it comes out whole. */
  lemma {:induction false} SplitAtSeparator(a: string, sep: string, b: string)
    requires |sep| > 0 && sep[0] !in a
    ensures Split(a + sep + b, sep) == [a] + Split(b, sep)
    decreases |a|
  {
    var s := a + sep + b;
    if |a| == 0 {
      assert s[..|sep|] == sep;
      assert s[|sep|..] == b;
    } else {
      if |sep| <= |s| {
        assert s[..|sep|][0] == a[0] != sep[0];
      }
      assert s[1..] == a[1..] + sep + b;
      SplitAtSeparator(a[1..], sep, b);
      assert [a[0]] + a[1..] == a;
    }
  }

  /** One step of `Split` with a one-character separator. */
  lemma SplitCharStep(s: string, c: char)
    requires |s| > 0
    ensures s[0] == c ==> Split(s, [c]) == [[]] + Split(s[1..], [c])
    ensures s[0] != c ==> Split(s, [c]) == [[s[0]] + Split(s[1..], [c])[0]] + Split(s[1..], [c])[1..]
  {
    assert s[..1] == [s[0]];
  }

  /** Splitting on one character yields one piece more than the number of
      times that character occurs. */
  lemma {:induction false} SplitCount(s: string, c: char)
    ensures |Split(s, [c])| == multiset(s)[c] + 1
    decreases |s|
  {
    if |s| > 0 {
      SplitCharStep(s, c);
      SplitCount(s[1..], c);
      assert s == [s[0]] + s[1..];
      assert multiset(s) == multiset{s[0]} + multiset(s[1..]);
    }
  }

  /** A one-character separator splits text into the pieces of what is on
      either side of it. */
  lemma {:induction false} SplitAround(a: string, c: char, b: string)
    ensures Split(a + [c] + b, [c]) == Split(a, [c]) + Split(b, [c])
    decreases |a|
  {
    if |a| == 0 {
      var s := a + [c] + b;
      assert s[0] == c && s[1..] == b;
      SplitCharStep(s, c);
    } else {
      SplitAround(a[1..], c, b);
      SplitAroundStep(a[0], a[1..], c, b);
      assert a == [a[0]] + a[1..];
    }
  }

  /** The inductive step of `SplitAround`: the character `x` in front joins
      the first piece or, being the separator, starts an empty one. */
  lemma SplitAroundStep(x: char, rest: string, c: char, b: string)
    requires Split(rest + [c] + b, [c]) == Split(rest, [c]) + Split(b, [c])
    ensures Split([x] + rest + [c] + b, [c]) == Split([x] + rest, [c]) + Split(b, [c])
  {
    var s, a := [x] + rest + [c] + b, [x] + rest;
    var pieces, pa, pb := Split(rest + [c] + b, [c]), Split(rest, [c]), Split(b, [c]);
    assert s[0] == x && s[1..] == rest + [c] + b;
    assert a[0] == x && a[1..] == rest;
    SplitCharStep(s, c);
    SplitCharStep(a, c);
    PiecesStep(x == c, x, pieces, pa, pb, Split(s, [c]), Split(a, [c]));
  }

  /** The sequence algebra behind `SplitAroundStep`, with the pieces named. */
  lemma PiecesStep(sepFirst: bool, x: char, rest: seq<string>, pa: seq<string>, pb: seq<string>,
                   whole: seq<string>, left: seq<string>)
    requires |pa| >= 1 && rest == pa + pb
    requires sepFirst ==> whole == [[]] + rest && left == [[]] + pa
    requires !sepFirst ==> whole == [[x] + rest[0]] + rest[1..] && left == [[x] + pa[0]] + pa[1..]
    ensures whole == left + pb
  {
    if !sepFirst {
      assert rest[0] == pa[0] && rest[1..] == pa[1..] + pb;
    }
  }

  /** When no piece contains the separator's first character, splitting the
      join gives back exactly the pieces. */
  lemma {:induction false} SplitJoin(parts: seq<string>, sep: string)
    requires |parts| >= 1 && |sep| > 0
    requires forall i :: 0 <= i < |parts| ==> sep[0] !in parts[i]
    ensures Split(Join(parts, sep), sep) == parts
    decreases |parts|
  {
    if |parts| == 1 {
      SplitWithoutSeparator(parts[0], sep);
    } else {
      SplitJoin(parts[1..], sep);
      SplitAtSeparator(parts[0], sep, Join(parts[1..], sep));
      assert [parts[0]] + parts[1..] == parts;
    }
  }

  // ---------------------------------------------------------------------------
  // Whitespace and str.split() with no argument
  // ---------------------------------------------------------------------------

  /** The characters Python's `str.isspace` and argument-less `str.split()` treat
      as whitespace. */
  predicate IsSpace(ch: char)
  {
    var c := ch as int;
    || (0x09 <= c <= 0x0D) || (0x1C <= c <= 0x20)
    || c == 0x85 || c == 0xA0 || c == 0x1680
    || (0x2000 <= c <= 0x200A)
    || c == 0x2028 || c == 0x2029 || c == 0x202F || c == 0x205F
    || c == 0x3000
  }

  predicate NoSpace(s: string)
  {
    forall i :: 0 <= i < |s| ==> !IsSpace(s[i])
  }

  /** The longest prefix of `s` that holds no whitespace. */
  function Word(s: string): (w: string)
    ensures |w| <= |s| && w == s[..|w|]
    ensures NoSpace(w)
    ensures |w| < |s| ==> IsSpace(s[|w|])
    decreases |s|
  {
    if |s| == 0 || IsSpace(s[0]) then []
    else [s[0]] + Word(s[1..])
  }

  /** Python's `s.split()`: the maximal runs of non-whitespace characters, in
      order; leading, trailing and repeated whitespace produce no tokens. */
  function Tokenize(s: string): (tokens: seq<string>)
    ensures forall i :: 0 <= i < |tokens| ==> |tokens[i]| > 0 && NoSpace(tokens[i])
    decreases |s|
  {
    if |s| == 0 then []
    else if IsSpace(s[0]) then Tokenize(s[1..])
    else
      var w := Word(s);
      [w] + Tokenize(s[|w|..])
  }

  /** The characters of `s` that are not whitespace, in order. */
  function RemoveSpaces(s: string): string
  {
    if |s| == 0 then []
    else (if IsSpace(s[0]) then [] else [s[0]]) + RemoveSpaces(s[1..])
  }

  function Concat(parts: seq<string>): string
  {
    if |parts| == 0 then [] else parts[0] + Concat(parts[1..])
  }

  lemma {:induction false} RemoveSpacesAppend(a: string, b: string)
    ensures RemoveSpaces(a + b) == RemoveSpaces(a) + RemoveSpaces(b)
    decreases |a|
  {
    if |a| > 0 {
      assert (a + b)[1..] == a[1..] + b;
      RemoveSpacesAppend(a[1..], b);
    } else {
      assert a + b == b;
    }
  }

  lemma {:induction false} RemoveSpacesOfWord(w: string)
    requires NoSpace(w)
    ensures RemoveSpaces(w) == w
    decreases |w|
  {
    if |w| > 0 {
      RemoveSpacesOfWord(w[1..]);
      assert [w[0]] + w[1..] == w;
    }
  }

  /** Tokenizing loses exactly the whitespace: the tokens, glued together, are
      the input with its whitespace removed. */
  lemma {:induction false} TokenizeKeepsNonSpace(s: string)
    ensures Concat(Tokenize(s)) == RemoveSpaces(s)
    decreases |s|
  {
    if |s| == 0 {
    } else if IsSpace(s[0]) {
      TokenizeKeepsNonSpace(s[1..]);
    } else {
      var w := Word(s);
      TokenizeKeepsNonSpace(s[|w|..]);
      assert s == w + s[|w|..];
      RemoveSpacesAppend(w, s[|w|..]);
      RemoveSpacesOfWord(w);
      assert Tokenize(s) == [w] + Tokenize(s[|w|..]);
      assert ([w] + Tokenize(s[|w|..]))[1..] == Tokenize(s[|w|..]);
    }
  }

  lemma {:induction false} WordBeforeSpace(w: string, rest: string)
    requires NoSpace(w)
    requires |rest| == 0 || IsSpace(rest[0])
    ensures Word(w + rest) == w
    decreases |w|
  {
    if |w| > 0 {
      assert (w + rest)[1..] == w[1..] + rest;
      WordBeforeSpace(w[1..], rest);
      assert [w[0]] + w[1..] == w;
    } else {
      assert w + rest == rest;
    }
  }

  /** Tokens that are non-empty and free of whitespace survive a round trip
      through `' '.join(...)` and `.split()`. */
  lemma {:induction false} TokenizeJoin(tokens: seq<string>)
    requires forall i :: 0 <= i < |tokens| ==> |tokens[i]| > 0 && NoSpace(tokens[i])
    ensures Tokenize(Join(tokens, " ")) == tokens
    decreases |tokens|
  {
    if |tokens| == 1 {
      assert Tokenize(tokens[0] + []) == [tokens[0]] + Tokenize([]) by {
        TokenizeWordFirst(tokens[0], []);
      }
      assert tokens[0] + [] == tokens[0];
    } else if |tokens| > 1 {
      var w := tokens[0];
      var tail := Join(tokens[1..], " ");
      assert Join(tokens, " ") == w + (" " + tail);
      assert Tokenize(w + (" " + tail)) == [w] + Tokenize(" " + tail) by {
        TokenizeWordFirst(w, " " + tail);
      }
      assert Tokenize(" " + tail) == Tokenize(tail) by {
        assert (" " + tail)[1..] == tail;
      }
      TokenizeJoin(tokens[1..]);
      assert [w] + tokens[1..] == tokens;
    }
  }

  /** A word followed by whitespace (or nothing) is the first token. */
  lemma TokenizeWordFirst(w: string, rest: string)
    requires |w| > 0 && NoSpace(w)
    requires |rest| == 0 || IsSpace(rest[0])
    ensures Tokenize(w + rest) == [w] + Tokenize(rest)
  {
    var s := w + rest;
    WordBeforeSpace(w, rest);
    assert !IsSpace(s[0]);
    assert s[|w|..] == rest;
  }

  /** A single whitespace character separates words: the text on either side
      of it is tokenized on its own. */
  lemma {:induction false} TokenizeAtSpace(a: string, c: char, b: string)
    requires IsSpace(c)
    ensures Tokenize(a + [c] + b) == Tokenize(a) + Tokenize(b)
    decreases |a|
  {
    if |a| == 0 {
      var s := a + [c] + b;
      assert s[0] == c && s[1..] == b;
    } else if IsSpace(a[0]) {
      TokenizeAtSpace(a[1..], c, b);
      SpaceFirstStep(a[0], a[1..], c, b);
      assert a == [a[0]] + a[1..];
    } else {
      var w := Word(a);
      var rest := a[|w|..];
      assert a == w + rest;
      TokenizeAtSpace(rest, c, b);
      WordFirstStep(w, rest, c, b);
    }
  }

  /** The step of `TokenizeAtSpace` past a whitespace character `x`. */
  lemma SpaceFirstStep(x: char, rest: string, c: char, b: string)
    requires IsSpace(x)
    requires Tokenize(rest + [c] + b) == Tokenize(rest) + Tokenize(b)
    ensures Tokenize([x] + rest + [c] + b) == Tokenize([x] + rest) + Tokenize(b)
  {
    var s, a := [x] + rest + [c] + b, [x] + rest;
    assert s[0] == x && s[1..] == rest + [c] + b;
    assert a[0] == x && a[1..] == rest;
  }

  /** The step of `TokenizeAtSpace` past a word `w` that whitespace (or the
      end of `a`) closes. */
  lemma WordFirstStep(w: string, rest: string, c: char, b: string)
    requires |w| > 0 && NoSpace(w) && IsSpace(c)
    requires |rest| == 0 || IsSpace(rest[0])
    requires Tokenize(rest + [c] + b) == Tokenize(rest) + Tokenize(b)
    ensures Tokenize(w + rest + [c] + b) == Tokenize(w + rest) + Tokenize(b)
  {
    var after := rest + [c] + b;
    var head := Tokenize(w + after);
    assert head == [w] + Tokenize(after) by {
      assert after[0] == if |rest| == 0 then c else rest[0];
      TokenizeWordFirst(w, after);
    }
    assert Tokenize(w + rest) == [w] + Tokenize(rest) by {
      TokenizeWordFirst(w, rest);
    }
    AppendAssoc(w, rest, [c]);
    AppendAssoc(w, rest + [c], b);
    Regroup(head, [w], Tokenize(after), Tokenize(rest), Tokenize(b), Tokenize(w + rest));
  }

  lemma AppendAssoc(x: string, y: string, z: string)
    ensures x + y + z == x + (y + z)
  {
  }

  /** The sequence algebra that closes `WordFirstStep`. */
  lemma Regroup(whole: seq<string>, first: seq<string>, after: seq<string>, left: seq<string>,
                right: seq<string>, leftWhole: seq<string>)
    requires whole == first + after && after == left + right && leftWhole == first + left
    ensures whole == leftWhole + right
  {
  }

  // ---------------------------------------------------------------------------
  // Decimal digits: str(n) for naturals and int(text)
  // ---------------------------------------------------------------------------

  predicate IsDigit(ch: char)
  {
    '0' <= ch <= '9'
  }

  predicate AllDigits(s: string)
  {
    forall i :: 0 <= i < |s| ==> IsDigit(s[i])
  }

  function DigitValue(ch: char): nat
    requires IsDigit(ch)
  {
    ch as int - '0' as int
  }

  function DigitChar(d: nat): (ch: char)
    requires d < 10
    ensures IsDigit(ch) && DigitValue(ch) == d
  {
    ('0' as int + d) as char
  }

  /** The number a string of decimal digits denotes (leading zeros allowed, as
      Python's `int` allows them). */
  function DecimalValue(s: string): nat
    requires AllDigits(s)
    decreases |s|
  {
    if |s| == 0 then 0
    else DecimalValue(s[..|s| - 1]) * 10 + DigitValue(s[|s| - 1])
  }

  /** Python's `str(n)` for a natural: the shortest decimal spelling, so no
      leading zero unless the number is zero. */
  function NatToDecimal(n: nat): (s: string)
    ensures |s| >= 1 && AllDigits(s)
    ensures DecimalValue(s) == n
    ensures s[0] == '0' ==> s == "0"
    decreases n
  {
    if n < 10 then [DigitChar(n)]
    else
      var p := NatToDecimal(n / 10);
      var s := p + [DigitChar(n % 10)];
      assert s[..|s| - 1] == p;
      s
  }

  /** The characters `int` skips around a number: Python's whitespace
      except the four ASCII separators U+001C..U+001F, which `int` (unlike
      `str.split()`) does not treat as blank. */
  predicate IntSpace(ch: char)
  {
    IsSpace(ch) && !(0x1C <= ch as int <= 0x1F)
  }

  /** The text `int` reads: `s` with the `IntSpace` characters at both ends
      removed. */
  function Strip(s: string): (t: string)
    ensures |t| <= |s|
    decreases |s|
  {
    if |s| > 0 && IntSpace(s[0]) then Strip(s[1..])
    else if |s| > 0 && IntSpace(s[|s| - 1]) then Strip(s[..|s| - 1])
    else s
  }

  /** Python's `int(text)` on a string: `IntSpace` characters around the
      number are ignored, an optional sign may precede a non-empty run of
      ASCII digits; anything else raises `ValueError`, modelled as `None`. */
  function ParseInt(s: string): Option<int>
  {
    var t := Strip(s);
    if |t| > 0 && (t[0] == '+' || t[0] == '-') then
      var body := t[1..];
      if |body| > 0 && AllDigits(body) then
        var magnitude: int := DecimalValue(body);
        Some(if t[0] == '-' then -magnitude else magnitude)
      else None
    else if |t| > 0 && AllDigits(t) then Some(DecimalValue(t))
    else None
  }

  /** A run of digits has nothing for `int` to strip. */
  lemma StripOfDigits(s: string)
    requires |s| >= 1 && AllDigits(s)
    ensures Strip(s) == s
  {
    assert !IntSpace(s[0]) && !IntSpace(s[|s| - 1]);
  }

  /** A run of digits is read by `int` as its decimal value. */
  lemma CanonicalParse(s: string)
    requires |s| >= 1 && AllDigits(s)
    ensures ParseInt(s) == Some(DecimalValue(s))
  {
    StripOfDigits(s);
  }

  /** `int` skips a tab before a number but not one of U+001C..U+001F, although
      `split()` treats all of them as whitespace. */
  lemma IntSpaceIsNarrower(s: string, c: char)
    requires |s| >= 1 && AllDigits(s)
    requires 0x1C <= c as int <= 0x1F
    ensures IsSpace(c)
    ensures ParseInt([c] + s) == None
    ensures ParseInt("\t" + s) == Some(DecimalValue(s))
  {
    SeparatorNotStripped(s, c);
    TabStripped(s);
    CanonicalParse(s);
  }

  lemma SeparatorNotStripped(s: string, c: char)
    requires |s| >= 1 && AllDigits(s)
    requires 0x1C <= c as int <= 0x1F
    ensures ParseInt([c] + s) == None
  {
    var u := [c] + s;
    assert !IntSpace(u[0]);
    assert !IntSpace(u[|u| - 1]) by {
      assert u[|u| - 1] == s[|s| - 1];
    }
    assert Strip(u) == u;
    assert !IsDigit(u[0]);
  }

  lemma TabStripped(s: string)
    requires |s| >= 1 && AllDigits(s)
    ensures Strip("\t" + s) == s
  {
    var v := "\t" + s;
    assert IntSpace(v[0]) && v[1..] == s;
    StripOfDigits(s);
  }

  /** `int(str(n)) == n`. */
  lemma ParseIntOfDecimal(n: nat)
    ensures ParseInt(NatToDecimal(n)) == Some(n)
  {
    var s := NatToDecimal(n);
    assert !IntSpace(s[0]) && !IntSpace(s[|s| - 1]);
    assert Strip(s) == s;
  }

  predicate NoDigit(s: string)
  {
    forall i :: 0 <= i < |s| ==> !IsDigit(s[i])
  }

  lemma {:induction false} StripKeepsNoDigit(s: string)
    requires NoDigit(s)
    ensures NoDigit(Strip(s))
    decreases |s|
  {
    if |s| > 0 && IntSpace(s[0]) {
      StripKeepsNoDigit(s[1..]);
    } else if |s| > 0 && IntSpace(s[|s| - 1]) {
      StripKeepsNoDigit(s[..|s| - 1]);
    }
  }

  /** Text without a single digit is never accepted by `int`. */
  lemma ParseIntNeedsDigit(s: string)
    requires NoDigit(s)
    ensures ParseInt(s) == None
  {
    StripKeepsNoDigit(s);
    var t := Strip(s);
    if |t| > 0 && (t[0] == '+' || t[0] == '-') && |t[1..]| > 0 {
      assert !IsDigit(t[1..][0]);
    } else if |t| > 0 {
      assert !IsDigit(t[0]);
    }
  }
}

=== FILE: update_guard.dfy ===
/** The test in `update_diary` (main.py:158-166) that decides whether the
    catch-up walk runs: the last entry's date, as `get_last_date_updated`
    writes it (`%m/%d/%Y`, main.py:328-334), is compared with today's date,
    as `get_current_date` writes it (`%m/%d/%y`, main.py:308-311). */
module UpdateGuard {
  import opened Strings

  /** A calendar date as `strftime` reads it. */
  datatype Date = Date(year: nat, month: nat, day: nat)

  function Pow10(width: nat): (p: nat)
    ensures p >= 1
  {
    if width == 0 then 1 else 10 * Pow10(width - 1)
  }

  /** A date `strftime` writes with a four-digit `%Y`. */
  predicate Valid(d: Date)
  {
    1000 <= d.year <= 9999 && 1 <= d.month <= 12 && 1 <= d.day <= 31
  }

  /** `n` in exactly `width` decimal digits, zero-padded on the left, as
      `%m`, `%d`, `%y` and `%Y` write their fields. */
  function Padded(n: nat, width: nat): (s: string)
    ensures |s| == width && AllDigits(s)
  {
    if width == 0 then [] else Padded(n / 10, width - 1) + [DigitChar(n % 10)]
  }

  /** Two numbers that fit the width have different paddings. */
  lemma {:induction false} PaddedInjective(n: nat, m: nat, width: nat)
    requires n < Pow10(width) && m < Pow10(width)
    requires Padded(n, width) == Padded(m, width)
    ensures n == m
    decreases width
  {
    if width > 0 {
      var a, b := Padded(n, width), Padded(m, width);
      assert a[..width - 1] == Padded(n / 10, width - 1);
      assert b[..width - 1] == Padded(m / 10, width - 1);
      PaddedInjective(n / 10, m / 10, width - 1);
      assert DigitValue(a[width - 1]) == n % 10;
      assert DigitValue(b[width - 1]) == m % 10;
    }
  }

  /** `strftime('%m/%d/%Y')`: ten characters. */
  function LongForm(d: Date): (s: string)
    ensures |s| == 10
  {
    Padded(d.month, 2) + "/" + Padded(d.day, 2) + "/" + Padded(d.year, 4)
  }

  /** `strftime('%m/%d/%y')`: eight characters. */
  function ShortForm(d: Date): (s: string)
    ensures |s| == 8
  {
    Padded(d.month, 2) + "/" + Padded(d.day, 2) + "/" + Padded(d.year % 100, 2)
  }

  /** The guard as written, `last_entry != today`: a ten-character text
      against an eight-character one. */
  predicate CatchUpGuardAsWritten(lastEntry: Date, today: Date)
  {
    LongForm(lastEntry) != ShortForm(today)
  }

  /** The guard as written lets every update through, including a second
      update on the day of the last entry, which then starts the walk with
      the last entry equal to today. */
  lemma SameDayPassesGuard(today: Date)
    ensures CatchUpGuardAsWritten(today, today)
  {
  }

  /** The guard as evidently intended: both dates in the same format. */
  predicate CatchUpGuard(lastEntry: Date, today: Date)
  {
    LongForm(lastEntry) != LongForm(today)
  }

  /** The corrected guard starts the catch-up exactly when the last entry is
      not today. */
  lemma CatchUpGuardIff(lastEntry: Date, today: Date)
    requires Valid(lastEntry) && Valid(today)
    ensures CatchUpGuard(lastEntry, today) <==> lastEntry != today
  {
    if LongForm(lastEntry) == LongForm(today) {
      var a, b := LongForm(lastEntry), LongForm(today);
      assert a[0..2] == Padded(lastEntry.month, 2) && b[0..2] == Padded(today.month, 2);
      assert a[3..5] == Padded(lastEntry.day, 2) && b[3..5] == Padded(today.day, 2);
      assert a[6..10] == Padded(lastEntry.year, 4) && b[6..10] == Padded(today.year, 4);
      assert Pow10(2) == 100 && Pow10(4) == 10000;
      PaddedInjective(lastEntry.month, today.month, 2);
      PaddedInjective(lastEntry.day, today.day, 2);
      PaddedInjective(lastEntry.year, today.year, 4);
    }
  }
}

=== FILE: wrappers.dfy ===
/** The optional-value datatype used throughout the model: `None` stands for
    the points where the Python code raises or finds nothing. */
module Wrappers {

  datatype Option<+T> = None | Some(value: T)

}
